=== FILE: README.md ===
# scaffai core, modelled in Dafny

scaffai is a command-line scaffolding assistant. Its commands `new`, `add_snippet` and
`analyze` gather parameters from the command line. When `--interactive` is set or a
required parameter is missing, they ask the user instead through a human-in-the-loop (HIL)
dialogue. They then send one instruction string to a language-model agent. The agent in
turn calls tools of `ScaffAgent`: reading rules and snippets, listing them, rendering a
project's directory tree, running a shell command, and creating a project or applying a
snippet by calling back into the CLI.

This project models the deterministic part of that program:

- **`Tree`** (`tree.dfy`): the `scan_dir` walk of `_analyze_project` over an immutable tree.
  It covers hidden and `__pycache__` entries, sorting by name, the file and directory tags,
  and two spaces of indentation per level. An outline of (depth, kind, name) records is what
  the lines mean, and `Parse` reads a line back.
- **`Tools`** (`tools.dfy`): the result strings of `_read_rule`, `_read_snippet`,
  `_list_rules`, `_list_snippets`, `_run_command`, `_create_project`, `_apply_snippet` and
  `_analyze_project`. The filesystem, the shell and the outcome of the callee are inputs.
- **`Hil`** (`hil.dfy`): `should_use_hil`, and the three dialogues `ask_project_details`,
  `ask_snippet_details` and `ask_analysis_details`. Each is a function of the agent's
  replies and the user's answers. A dialogue is a sequence of rounds, one per pass through
  the questions. An unconfirmed round starts the dialogue again, as the source's recursive
  call does.
- **`Cli`** (`cli.dfy`): the gate `interactive or should_use_hil(...)` of each command, and
  the instruction each command sends.
- **`Delegates`** (`delegates.dfy`): what `_create_project` and `_apply_snippet` hand to
  the commands `new` and `add_snippet` (see Findings).
- **Support modules.** `Strings` models the Python `str` operations used: `split`, `join`,
  `strip`, `lower`, `in`, ordering and `Path.stem`. `Paths` models `str(Path(p))` on POSIX.
  `Values` models the parameter bag, Python truth testing and f-string conversion.
  `Wrappers` holds `Option`.

Conventions of the model:

- A Python `None` in the bag is `Null`. A missing key reads as `Null`, like `dict.get`.
- A `pathlib.Path` value is `PathOf(raw)`. It is always true and is written out as its
  normalised text.
- An exception that escapes a tool is `Raised(message)`.

## Model

| member | source | states |
|---|---|---|
| Strings.Strip | scaffai/hil.py:118-120 | the stripped line is the contiguous middle of the line left once the whitespace before and after it is cut off, has no whitespace at either end, and a line is its own strip exactly when neither end is whitespace |
| Strings.StripIdempotent | scaffai/hil.py:119-120 | stripping an already stripped focus area changes nothing |
| Strings.SplitJoin | scaffai/hil.py:118 | splitting on a character undoes joining with it, when no piece holds that character |
| Strings.JoinSplit | scaffai/hil.py:118 | joining the pieces of a split gives the original text back |
| Strings.CommaItemsJoin | scaffai/agent.py:162 | reading a `", ".join` back gives the parts when none holds a comma and the first is not empty |
| Strings.Lower | scaffai/hil.py:44 | lower-casing keeps the length, maps each character independently and leaves no ASCII capital |
| Strings.NameLeTotal | scaffai/agent.py:184 | any two names are comparable in Python's string order |
| Strings.NameLeTransitive | scaffai/agent.py:184 | Python's string order is transitive |
| Strings.NameLeAntisymmetric | scaffai/agent.py:184 | two names each no greater than the other are equal |
| Strings.TxtStem | scaffai/agent.py:161 | the stem of a `*.txt` name is the name without ".txt", except that ".txt" alone is its own stem |
| Paths.PathString | scaffai/hil.py:57 | the text of a `Path` is never empty and ends in "/" only when it is a bare root |
| Paths.PathStringIdempotent | scaffai/hil.py:104 | building a `Path` from a path's text gives the same text again |
| Paths.CurrentDirectory | scaffai/hil.py:89 | both "" and the default "." are written as "." |
| Values.OptPathTruthy | scaffai/cli.py:66 | a path option is true exactly when it was given, and its text is then non-empty |
| Values.Falsy | scaffai/hil.py:127-133 | the values `should_use_hil` treats as missing are exactly `None`, the empty string and the empty list; a path is never missing |
| Values.Text | scaffai/cli.py:51-55 | an f-string writes `None` as "None", a string as itself, and a path as `str(Path(raw))` of its own text, which is non-empty and already in normal form |
| Tree.Sort | scaffai/agent.py:184 | `sorted(path.iterdir())` holds the same entries, ordered by name |
| Tree.SortedUnique | scaffai/agent.py:184 | with unique names, only one arrangement of a listing is sorted |
| Tree.ListingOrderIrrelevant | scaffai/agent.py:184 | the walk's lines and its failure do not depend on the order the directory lists its entries in |
| Tree.SiblingsSorted | scaffai/agent.py:184 | the lines at one level come out in order of name |
| Tree.EntryOutline | scaffai/agent.py:185-191 | an entry's lines are well nested, never name a hidden entry, and count one per visible file or directory beneath it |
| Tree.Outline | scaffai/agent.py:182-192 | a listing's lines are well nested, never name a hidden entry, and count one per visible file or directory |
| Tree.ListingRenders | scaffai/agent.py:187-191 | each line the walk writes is the formatted outline line at the same position: indentation of two spaces per level, tag, name, and "/" after a directory |
| Tree.SeqRenders | scaffai/agent.py:184-191 | walking sorted siblings writes the lines of the first sibling, then those of the rest |
| Tree.EntryRenders | scaffai/agent.py:187-191 | one entry's lines are its own formatted line followed by its contents one level deeper |
| Tree.ScanDir | scaffai/agent.py:182-192 | the walk writes one line per visible file or directory anywhere below (an unreadable directory included) and none for any other kind of entry, each line starting with the prefix it was given |
| Tree.ParseFormat | scaffai/agent.py:188-190 | a rendered line reads back as the line it renders |
| Tree.LinesDecode | scaffai/agent.py:182-192 | every line of the walk reads back as the outline entry at its position |
| Tree.FormatNewline | scaffai/agent.py:188-190 | a rendered line holds a line break only when the name does |
| Tree.SilentEntryIgnored | scaffai/agent.py:185-186 | a hidden entry or a non-file non-directory adds no line and no failure, whatever lies below it |
| Tree.SilentEntriesIgnored | scaffai/agent.py:185-186 | any number of such entries add no line and no failure |
| Tree.Denied | scaffai/agent.py:184-191 | the walk fails exactly when some visible directory below cannot be listed, whatever order the listings come in |
| Tools.ReadRule | scaffai/agent.py:108-113 | a missing rule gives a "not found" text, a stored rule gives its text unchanged, and the tool raises exactly when reading the file fails |
| Tools.ReadSnippet | scaffai/agent.py:115-120 | a missing snippet gives a "not found" text, a stored snippet gives its text unchanged, and the tool raises exactly when reading the file fails |
| Tools.TxtStems | scaffai/agent.py:161 | there is one stem per listed `*.txt` name, every such name contributes its stem, every stem comes from a listed `*.txt` name (".txt" only when a file named ".txt" is listed), and no stem is empty |
| Tools.ListRules | scaffai/agent.py:158-162 | the reply starts with "Available rules: ", names every `*.txt` entry of the rules directory by its stem after that prefix, and is the prefix alone exactly when there is no such entry |
| Tools.ListRulesReadsBack | scaffai/agent.py:161-162 | when no stem holds a comma, splitting the text after the prefix at ", " gives back exactly the stems, in order and with their multiplicity |
| Tools.CategoryLines | scaffai/agent.py:170-175 | there are as many lines as categories holding a snippet, each such category has its line, and every line is the line of such a category |
| Tools.ListSnippets | scaffai/agent.py:164-177 | the "No snippets found" text when the language is missing or no category holds a snippet, the category lines joined otherwise, and a raise exactly when the language path cannot be listed |
| Tools.RunCommand | scaffai/agent.py:204-217 | the success banner exactly on exit status 0, the failure banner exactly on any other status, the launch banner exactly when the command could not start |
| Tools.RunCommandReadsBack | scaffai/agent.py:212-217 | the reply gives back the kind of outcome and the one output stream it reports |
| Tools.CreateProject | scaffai/agent.py:122-139 | the failure prefix appears exactly when the JSON is malformed, a required key is missing or the command fails, a missing key is reported as the quoted key, and success names the project |
| Tools.ApplySnippet | scaffai/agent.py:141-156 | the failure prefix appears exactly when the JSON is malformed, a required key is missing or the command fails, keys are read in order, and success names the snippet |
| Tools.AnalyzeProject | scaffai/agent.py:194-202 | "not found" for a missing directory, the structure header exactly when the whole visible tree can be listed, and then the walk's lines joined by newlines |
| Tools.AnalyzeMissingSaysNotFound | scaffai/agent.py:196-197 | the reply for a missing directory contains "not found" |
| Tools.AnalyzeReadsBack | scaffai/agent.py:199-200 | for a readable tree with at least one visible entry, none of whose visible names holds a line break, the reply body splits into exactly the outline's lines and each reads back as its outline entry |
| Tools.AnalyzeExample | scaffai/agent.py:182-200 | a tree with `.git`, `__pycache__`, `b/c.txt` and `a.txt` renders as `a.txt`, `b/`, then `c.txt` indented |
| Hil.ShouldUseHil | scaffai/hil.py:124-133 | the dialogue is skipped exactly for a known command whose required parameters are all true, and always used for an unknown command |
| Hil.ShouldUseHilOnlyRequired | scaffai/hil.py:127-132 | parameters other than the required ones never change the decision |
| Hil.Answer | scaffai/hil.py:33 | an empty answer takes the default, and any other answer is kept |
| Hil.ProjectParams | scaffai/hil.py:42-57 | the bag always holds name, template and output; it holds username exactly when the lower-cased requirements mention one, db exactly when they mention a database and the user wants one, and no other key |
| Hil.ProjectDialogue | scaffai/hil.py:19-68 | the dialogue returns a bag exactly when some round is confirmed, and that bag holds name, template and output |
| Hil.NameSticks | scaffai/hil.py:24-25 | a name given to the dialogue is kept through every retry, and the first confirmed round decides the rest |
| Hil.FirstNameSticks | scaffai/hil.py:65-66 | a name typed in the first round is passed on to every later round |
| Hil.DialogueName | scaffai/hil.py:19-68 | the first confirmed round decides the bag, and its name is the first non-empty one among the name given and those typed up to that round; an empty name is asked again in every round |
| Hil.AsksForAnyCase | scaffai/hil.py:44 | a keyword in any letter case in the requirements counts |
| Hil.NeverAsksForDatabase | scaffai/hil.py:47 | requirements without the letter d never lead to the database question |
| Hil.ProjectExample | scaffai/hil.py:42-57 | requirements mentioning a username, with all defaults accepted, give exactly name, "python", the username and "." |
| Hil.RoundTemplate | scaffai/hil.py:75-78 | the template a round uses is never empty |
| Hil.SnippetParams | scaffai/hil.py:101-105 | the bag holds exactly snippet, template and the project directory, which defaults to "." |
| Hil.SnippetDialogue | scaffai/hil.py:70-105 | the dialogue returns a bag exactly when some round is confirmed, holding exactly the three keys |
| Hil.TemplateSticks | scaffai/hil.py:98-99 | the template settled in the first round is kept through every retry |
| Hil.CandidatesClean | scaffai/hil.py:118-120 | the lines offered as focus areas are non-blank, already stripped and free of line breaks |
| Hil.FocusAreas | scaffai/hil.py:117-120 | every focus area is one of the offered lines |
| Hil.FocusAreasAreConfirmedCandidates | scaffai/hil.py:117-120 | the focus areas are exactly the stripped, non-blank lines among those the user confirmed, in order, each as often as it was confirmed |
| Hil.FocusAreasChosen | scaffai/hil.py:117-120 | the focus areas are the offered lines with some left out, in their order |
| Hil.FocusAreasAllConfirmed | scaffai/hil.py:119-120 | confirming every line selects all offered lines |
| Hil.FocusAreasNoneConfirmed | scaffai/hil.py:119-120 | declining every line selects nothing |
| Hil.AnalysisParams | scaffai/hil.py:107-122 | the bag holds exactly the directory (default ".") and the list of the stripped, non-blank lines the user confirmed, each clean |
| Cli.NewBag | scaffai/cli.py:40-46 | the bag holds the five keys, and its output is true exactly when `--output` was given |
| Cli.NewHeadOf | scaffai/cli.py:51-53 | the fixed part names the project, the template and the normalised output directory |
| Cli.NewInstruction | scaffai/cli.py:51-55 | the instruction starts with the fixed part; the username clause follows it exactly when the username is true; otherwise the database clause follows exactly when the database is true; the instruction ends with the last clause present, and its length leaves room for the present clauses and nothing else |
| Cli.NewCommand | scaffai/cli.py:48-56 | without `--interactive` and with name and template, the command line is sent as it is; otherwise an instruction is sent exactly when some dialogue round is confirmed (what it holds is stated by `Cli.NewDialogue`) |
| Cli.NewGate | scaffai/cli.py:48 | `new` asks for the dialogue exactly when the name or the template is missing or empty |
| Cli.NewSkipsDialogue | scaffai/cli.py:40-55 | with name and template, the user's answers do not matter, and a missing `--output` is written as "None" |
| Cli.NewSendsAtOnce | scaffai/cli.py:48-53 | with name, template and directory, the instruction names all three whatever the user would answer |
| Cli.NewDialogue | scaffai/cli.py:48-56 | whenever the dialogue runs (`--interactive`, or a missing or empty name or template), the instruction sent is built from the first confirmed round's bag: it names the settled name, the template typed in that round ("python" by default) and its directory ("." by default) |
| Cli.SnippetBag | scaffai/cli.py:74-78 | the bag holds exactly snippet, template and project directory |
| Cli.SnippetInstruction | scaffai/cli.py:83-85 | the instruction names the snippet, then the template, then the project directory, each after its fixed words, and each can be read back at the position the lengths before it give |
| Cli.AddSnippetCommand | scaffai/cli.py:80-85 | without `--interactive` and with snippet and template, the command line is sent; otherwise an instruction is sent exactly when some round is confirmed (what it holds is stated by `Cli.AddSnippetDialogue`) |
| Cli.AddSnippetWithoutDirectory | scaffai/cli.py:74-85 | the project directory takes no part in the gate, so a missing one is written "None" |
| Cli.AddSnippetDialogue | scaffai/cli.py:80-85 | whenever the dialogue runs, the instruction names the snippet typed in the first confirmed round, the template settled in the first round, and the directory typed in the confirmed round ("." by default), each readable back at its position |
| Cli.AnalyzeInstruction | scaffai/cli.py:104-112 | the instruction starts with the directory, names the joined focus areas right after it exactly when there are any, and ends with " and suggest improvements", with nothing else in between |
| Cli.AnalyzeBag | scaffai/cli.py:99 | the bag holds only the project directory |
| Cli.AnalyzeCommand | scaffai/cli.py:101-112 | the instruction always ends with the closing words, and a given directory without `--interactive` is sent as it is (the dialogue path is stated by `Cli.AnalyzeFocus`) |
| Cli.AnalyzeGate | scaffai/cli.py:101 | `analyze` asks for the dialogue exactly when `--project-dir` is not given |
| Cli.AnalyzeEmptyDirectory | scaffai/cli.py:91-105 | an empty `--project-dir` analyses "." without asking |
| Cli.AnalyzeFocus | scaffai/cli.py:101-112 | with `--interactive` or without `--project-dir`, the instruction is exactly the typed directory ("." by default), then the confirmed areas joined by ", " when there are any, then the closing words |
| Delegates.CreateArgs | scaffai/agent.py:130-136 | the command line carries the requested name and template, the "output_dir" value or "." when it is absent, and the username and database exactly when their keys are present |
| Delegates.CreateProjectCall | scaffai/agent.py:128-136 | nothing is sent for malformed JSON or a missing name or template |
| Delegates.CreateProjectAsWrittenAsks | scaffai/agent.py:130-136 | as written, a complete request sends nothing without the user; otherwise the first confirmed round decides what is sent, the requested template has no effect on it, and accepting the default template gives "python" |
| Delegates.CreateProjectCorrectedSends | scaffai/agent.py:130-136 | corrected, a complete request is sent at once, whatever the user would answer, and starts by naming the requested project, template and output directory ("." when none is given) |
| Delegates.ApplyArgs | scaffai/agent.py:149-153 | the command line carries the requested snippet, template and directory |
| Delegates.ApplySnippetCall | scaffai/agent.py:147-153 | nothing is sent for malformed JSON or a missing key |
| Delegates.ApplySnippetAsWrittenAsks | scaffai/agent.py:149-153 | as written, a complete request sends nothing without the user; otherwise the snippet and the directory named are those typed in the first confirmed round (the directory "." by default), only the requested template is kept, and the requested directory has no effect |
| Delegates.ApplySnippetCorrectedSends | scaffai/agent.py:149-153 | corrected, a complete request is sent at once, whatever the user would answer, and names the requested snippet, template and directory in that order |

## Left out

- The language-model agent: its construction, tool wiring, conversation memory, `chat` and
  `get_agent` with the API-key lookup. The agent's replies are inputs. The texts of the
  questions the dialogues send to it, and the panels the console shows, are not modelled.
- Console I/O: `Prompt.ask` and `Confirm.ask` are the per-round answers of a dialogue. Rich's
  own handling of what the user types is not modelled. Two examples are re-asking on an
  invalid confirmation and stripping the typed text. `Hil.Answer` covers only the default
  for an empty answer.
- The filesystem and the shell. Directory listings, file contents, `exists()`, `glob` and
  `subprocess.run` are data. A file whose `is_file()` check raises is not modelled.
  `is_file()` and `is_dir()` follow symbolic links, so a link is modelled as the entry it
  points to: a link to a file is a `File`, a link to a directory a `Dir` walked like any
  other. A link whose target is neither a regular file nor a directory is `Other`, like a
  FIFO, a socket or a device itself; this includes a dangling link and a link caught in a
  cycle, whose path the operating system refuses to resolve, so that `is_file()` and
  `is_dir()` both report false and the entry is skipped. The finite tree stands for what
  those two checks report.
- `json.loads`. Its result is either an error text or an object of string fields. A JSON
  value that is not a string (a number, say) is not modelled.
- The success or failure of the `new` and `add_snippet` calls inside the tools is an input,
  `failure`. What those commands print is not modelled.
- Hil.ProjectDialogue: the source retries without bound. The model takes a finite sequence
  of rounds, and returns nothing when no round is confirmed.
- Hil.FocusAreas: the user's answers are given as one flag per line of the agent's reply.
  Lines that are blank are never asked about, and their flag is ignored.
- Strings.Lower: ASCII letters only. This is exact for the keywords "username" and
  "database", which only ASCII letters lower-case into.
- Values.Text: for a list the contract states only the brackets. Each item is written in
  single quotes; Python's choice of quotes for items that themselves hold quotes or
  backslashes is not modelled. No list reaches an f-string in the program: the focus areas
  are passed through `join` first.
- Hil.ShouldUseHil: `analyze` receives its directory as a `Path`, which is always true, so
  only an absent `--project-dir` starts the dialogue (`Cli.AnalyzeGate`).
- Tools.ReadRule, Tools.ReadSnippet and Tools.ListSnippets: `read_text` and `iterdir` can
  raise out of these tools, which have no `try` around them; the model returns `Raised`.
- Delegates.CreateArgs: the code reads the output directory from the key "output_dir", while
  the dialogue's own bag uses "output". The model follows the code.

## Findings

| source | as written | input that shows it | evidently intended | confidence | as-written member | corrected member |
|---|---|---|---|---|---|---|
| scaffai/agent.py:130-136 | `_create_project` calls the typer command `new` as a plain function and leaves out `interactive`. That argument then holds the truthy `typer.Option(None)` object, so the project dialogue always runs. | `{"name": "demo", "template": "go"}`. Without user answers nothing is sent. If the user accepts the defaults, the project uses template "python". | a complete request is passed straight to the agent (`interactive=False`) | not executed | Delegates.CreateProjectAsWrittenAsks | Delegates.CreateProjectCorrectedSends |
| scaffai/agent.py:149-153 | `_apply_snippet` calls `add_snippet` in the same way, so the snippet dialogue always runs. | `{"snippet": "logging", "template": "go", "project_dir": "app"}`. If the user accepts the defaults, the snippet goes to "." instead of "app". | the requested directory is used without asking | not executed | Delegates.ApplySnippetAsWrittenAsks | Delegates.ApplySnippetCorrectedSends |

=== FILE: cli.dfy ===
/** The commands of scaffai/cli.py that build an instruction for the agent: `new`,
    `add_snippet` and `analyze`. Each gathers its command-line values into a parameter bag,
    runs the matching dialogue when `--interactive` is set or `should_use_hil` asks for it,
    and writes the bag into one instruction string, which is what the command sends. */
module Cli {

  import opened Wrappers
  import opened Strings
  import opened Paths
  import opened Values
  import opened Hil

  /** The value text of an optional clause: `words` and the value's text when the value is
      true, nothing otherwise. */
  function Clause(params: Bag, key: string, words: string): (r: string)
    ensures Truthy(Get(params, key)) ==> r == words + Text(params[key])
    ensures !Truthy(Get(params, key)) ==> r == ""
  {
    if Truthy(Get(params, key)) then words + Text(params[key]) else ""
  }

  // ---------------------------------------------------------------------------------------
  // new
  // ---------------------------------------------------------------------------------------

  /** The command line of `new`: each value is absent when not given. */
  datatype NewArgs = NewArgs(
    name: Option<string>,
    template: Option<string>,
    output: Option<string>,
    username: Option<string>,
    db: Option<string>)

  /** The bag `new` builds from its command line; the output directory is a `Path`. */
  function NewBag(args: NewArgs): (r: Bag)
    ensures r.Keys == {"name", "template", "output", "username", "db"}
    ensures Truthy(r["output"]) <==> args.output.Some?
  {
    OptPathTruthy(args.output);
    map["name" := OptStr(args.name), "template" := OptStr(args.template),
        "output" := OptPath(args.output), "username" := OptStr(args.username),
        "db" := OptStr(args.db)]
  }

  const UserLabel := ", GitHub username: "
  const DbLabel := ", database: "

  /** The fixed part of the `new` instruction. */
  function NewHead(params: Bag): string
    requires "name" in params && "template" in params && "output" in params
  {
    "Create a new project named '" + Text(params["name"]) + "' using the "
      + Text(params["template"]) + " template. Output directory: " + Text(params["output"])
  }

  /** The fixed part names the project, the template and the directory from the command line,
      the directory written as `str(Path(output))`. */
  lemma NewHeadOf(name: string, template: string, output: string, args: NewArgs)
    requires args.name == Some(name) && args.template == Some(template) && args.output == Some(output)
    ensures NewHead(NewBag(args)) == "Create a new project named '" + name + "' using the " + template
      + " template. Output directory: " + PathString(output)
  {
    var bag := NewBag(args);
    assert Text(bag["name"]) == name && Text(bag["template"]) == template;
    assert Text(bag["output"]) == PathString(output);
  }

  /** The `new` instruction: the fixed part, then the username clause when the username is
      true, then the database clause when the database is true. What follows the fixed part
      starts with the username label exactly when there is a username, and otherwise starts
      with the database label exactly when there is a database; the length leaves room for
      the present clauses and nothing else, so these positions pin the whole text. */
  function NewInstruction(params: Bag): (r: string)
    requires "name" in params && "template" in params && "output" in params
    ensures NewHead(params) <= r
    ensures UserLabel <= r[|NewHead(params)|..] <==> Truthy(Get(params, "username"))
    ensures Truthy(Get(params, "username")) ==>
      UserLabel + Text(params["username"]) <= r[|NewHead(params)|..]
    ensures !Truthy(Get(params, "username")) ==>
      (DbLabel <= r[|NewHead(params)|..] <==> Truthy(Get(params, "db")))
    ensures Truthy(Get(params, "db")) ==> EndsWith(r, DbLabel + Text(params["db"]))
    ensures Truthy(Get(params, "username")) && !Truthy(Get(params, "db")) ==>
      EndsWith(r, UserLabel + Text(params["username"]))
    ensures !Truthy(Get(params, "username")) && !Truthy(Get(params, "db")) ==> r == NewHead(params)
    ensures |r| == |NewHead(params)|
      + (if Truthy(Get(params, "username")) then |UserLabel| + |Text(params["username"])| else 0)
      + (if Truthy(Get(params, "db")) then |DbLabel| + |Text(params["db"])| else 0)
  {
    var head := NewHead(params);
    var user := Clause(params, "username", UserLabel);
    var db := Clause(params, "db", DbLabel);
    var r := head + user + db;
    Concat3(head, user, db);
    ClausesStart(params, user, db);
    r
  }

  /** What follows the fixed part starts with the clause that is present first. */
  lemma ClausesStart(params: Bag, user: string, db: string)
    requires user == Clause(params, "username", UserLabel) && db == Clause(params, "db", DbLabel)
    ensures UserLabel <= user + db <==> Truthy(Get(params, "username"))
    ensures Truthy(Get(params, "username")) ==> UserLabel + Text(params["username"]) <= user + db
    ensures !Truthy(Get(params, "username")) ==> (DbLabel <= user + db <==> Truthy(Get(params, "db")))
  {
    if !Truthy(Get(params, "username")) {
      assert user + db == db;
      if Truthy(Get(params, "db")) {
        PrefixClash(UserLabel, DbLabel, db, 2);
      }
    }
  }

  /** The command `new`: the instruction it sends, or nothing when its dialogue never ends
      within `rounds`. The dialogue runs when `interactive` is true or when the name or the
      template is missing or empty, and then its bag replaces the command line. */
  function NewCommand(args: NewArgs, interactive: bool, rounds: seq<ProjectRound>): (r: Option<string>)
    ensures !interactive && Truthy(OptStr(args.name)) && Truthy(OptStr(args.template)) ==>
      r == Some(NewInstruction(NewBag(args)))
    ensures interactive || !Truthy(OptStr(args.name)) || !Truthy(OptStr(args.template)) ==>
      (r.Some? <==> exists i :: 0 <= i < |rounds| && rounds[i].proceed)
  {
    var params := NewBag(args);
    if interactive || ShouldUseHil("new", params) then
      match ProjectDialogue(args.name, rounds)
      case None => None
      case Some(bag) => Some(NewInstruction(bag))
    else Some(NewInstruction(params))
  }

  /** On the command line of `new`, the dialogue is asked for exactly when the name or the
      template is missing or empty. */
  lemma NewGate(args: NewArgs)
    ensures ShouldUseHil("new", NewBag(args))
      <==> !(args.name.Some? && args.name.value != "" && args.template.Some? && args.template.value != "")
  {
  }

  /** Given a name and a template and no `--interactive`, `new` asks nothing, whatever the user
      would have answered, and sends one instruction naming both. Without `--output` the
      directory it names is "None". */
  lemma NewSkipsDialogue(name: string, template: string, output: Option<string>,
                         rounds: seq<ProjectRound>)
    requires name != "" && template != ""
    ensures var r := NewCommand(NewArgs(Some(name), Some(template), output, None, None), false, rounds);
      && r.Some?
      && r == NewCommand(NewArgs(Some(name), Some(template), output, None, None), false, [])
      && r.value == "Create a new project named '" + name + "' using the " + template
           + " template. Output directory: " + (if output.Some? then PathString(output.value) else "None")
  {
    var args := NewArgs(Some(name), Some(template), output, None, None);
    var bag := NewBag(args);
    assert Truthy(OptStr(args.name)) && Truthy(OptStr(args.template));
    assert !Truthy(Get(bag, "username")) && !Truthy(Get(bag, "db"));
    assert Text(bag["name"]) == name && Text(bag["template"]) == template;
    assert Text(bag["output"]) == (if output.Some? then PathString(output.value) else "None");
  }

  /** Given a name, a template and a directory and no `--interactive`, `new` sends at once an
      instruction that starts by naming all three. */
  lemma NewSendsAtOnce(name: string, template: string, output: string, args: NewArgs,
                       rounds: seq<ProjectRound>)
    requires args.name == Some(name) && args.template == Some(template) && args.output == Some(output)
    requires name != "" && template != ""
    ensures var r := NewCommand(args, false, rounds);
      && r.Some?
      && r == NewCommand(args, false, [])
      && "Create a new project named '" + name + "' using the " + template
           + " template. Output directory: " + PathString(output) <= r.value
  {
    assert Truthy(OptStr(args.name)) && Truthy(OptStr(args.template));
    var sent := NewInstruction(NewBag(args));
    assert NewCommand(args, false, rounds) == Some(sent) == NewCommand(args, false, []);
    NewHeadOf(name, template, output, args);
    assert NewHead(NewBag(args)) <= sent;
  }

  /** Whenever the dialogue runs, `--interactive` or not, `new` sends the bag of the first
      confirmed round `k`. The name in it is the first non-empty one among the command line's
      and those typed in rounds 0 to `k`; the template and the directory are those typed in
      round `k`, "python" and "." by default. */
  lemma NewDialogue(args: NewArgs, interactive: bool, rounds: seq<ProjectRound>, k: nat)
    requires interactive || ShouldUseHil("new", NewBag(args))
    requires k < |rounds| && rounds[k].proceed
    requires forall j :: 0 <= j < k ==> !rounds[j].proceed
    ensures var name := FirstNonEmpty(Given(args.name) + NameInputs(rounds[..k + 1]));
      var r := NewCommand(args, interactive, rounds);
      && r == Some(NewInstruction(ProjectParams(name, rounds[k])))
      && "Create a new project named '" + name + "' using the " + Answer(rounds[k].templateInput, "python")
           + " template. Output directory: " + PathString(Answer(rounds[k].outputInput, ".")) <= r.value
  {
    var name := FirstNonEmpty(Given(args.name) + NameInputs(rounds[..k + 1]));
    DialogueName(args.name, rounds, k);
    var bag := ProjectParams(name, rounds[k]);
    assert Text(bag["name"]) == name;
    assert Text(bag["template"]) == Answer(rounds[k].templateInput, "python");
    assert Text(bag["output"]) == PathString(Answer(rounds[k].outputInput, "."));
  }

  // ---------------------------------------------------------------------------------------
  // add_snippet
  // ---------------------------------------------------------------------------------------

  /** The command line of `add_snippet`. */
  datatype SnippetArgs = SnippetArgs(
    snippet: Option<string>,
    template: Option<string>,
    projectDir: Option<string>)

  function SnippetBag(args: SnippetArgs): (r: Bag)
    ensures r.Keys == {"snippet", "template", "project_dir"}
  {
    map["snippet" := OptStr(args.snippet), "template" := OptStr(args.template),
        "project_dir" := OptPath(args.projectDir)]
  }

  /** `r` names `snippet`, `template` and `dir` in that order, each after its fixed words:
      the three can be read back from `r` at the positions their lengths give. */
  predicate NamesSnippet(r: string, snippet: string, template: string, dir: string)
  {
    var head := "Add the " + snippet + " snippet for ";
    && head <= r
    && |r| == |head| + |template| + |" to the project in " + dir|
    && r[|head|..|head| + |template|] == template
    && EndsWith(r, " to the project in " + dir)
  }

  /** The `add_snippet` instruction: snippet, template and directory in that order, each
      after its fixed words. */
  function SnippetInstruction(params: Bag): (r: string)
    requires "snippet" in params && "template" in params && "project_dir" in params
    ensures NamesSnippet(r, Text(params["snippet"]), Text(params["template"]), Text(params["project_dir"]))
  {
    var head := "Add the " + Text(params["snippet"]) + " snippet for ";
    var template := Text(params["template"]);
    var tail := " to the project in " + Text(params["project_dir"]);
    var r := head + template + tail;
    Concat3(head, template, tail);
    assert r[|head|..][..|template|] == template;
    r
  }

  /** The command `add_snippet`, like `new`. */
  function AddSnippetCommand(args: SnippetArgs, interactive: bool, rounds: seq<SnippetRound>): (r: Option<string>)
    ensures !interactive && Truthy(OptStr(args.snippet)) && Truthy(OptStr(args.template)) ==>
      r == Some(SnippetInstruction(SnippetBag(args)))
    ensures interactive || !Truthy(OptStr(args.snippet)) || !Truthy(OptStr(args.template)) ==>
      (r.Some? <==> exists i :: 0 <= i < |rounds| && rounds[i].proceed)
  {
    var params := SnippetBag(args);
    if interactive || ShouldUseHil("add_snippet", params) then
      match SnippetDialogue(args.template, rounds)
      case None => None
      case Some(bag) => Some(SnippetInstruction(bag))
    else Some(SnippetInstruction(params))
  }

  /** The project directory takes no part in the gate: given a snippet and a template but no
      `--project-dir`, `add_snippet` asks nothing and names the directory "None". */
  lemma AddSnippetWithoutDirectory(snippet: string, template: string, rounds: seq<SnippetRound>)
    requires snippet != "" && template != ""
    ensures var r := AddSnippetCommand(SnippetArgs(Some(snippet), Some(template), None), false, rounds);
      r.Some? && EndsWith(r.value, " to the project in None")
  {
    var args := SnippetArgs(Some(snippet), Some(template), None);
    var bag := SnippetBag(args);
    assert Truthy(OptStr(args.snippet)) && Truthy(OptStr(args.template));
    var sent := SnippetInstruction(bag);
    assert AddSnippetCommand(args, false, rounds) == Some(sent);
    assert " to the project in " + Text(bag["project_dir"]) == " to the project in None";
  }

  /** Whenever the dialogue runs, `add_snippet` sends the bag of the first confirmed round
      `k`: the snippet and the directory typed in it, the directory "." by default, and the
      template settled in the first round. */
  lemma AddSnippetDialogue(args: SnippetArgs, interactive: bool, rounds: seq<SnippetRound>, k: nat)
    requires interactive || ShouldUseHil("add_snippet", SnippetBag(args))
    requires k < |rounds| && rounds[k].proceed
    requires forall j :: 0 <= j < k ==> !rounds[j].proceed
    ensures var template := RoundTemplate(args.template, rounds[0]);
      var r := AddSnippetCommand(args, interactive, rounds);
      && r == Some(SnippetInstruction(SnippetParams(template, rounds[k])))
      && NamesSnippet(r.value, rounds[k].snippetInput, template,
                      PathString(Answer(rounds[k].projectDirInput, ".")))
  {
    TemplateSticks(args.template, rounds, k);
    var bag := SnippetParams(RoundTemplate(args.template, rounds[0]), rounds[k]);
    assert Text(bag["snippet"]) == rounds[k].snippetInput;
    assert Text(bag["project_dir"]) == PathString(Answer(rounds[k].projectDirInput, "."));
  }

  // ---------------------------------------------------------------------------------------
  // analyze
  // ---------------------------------------------------------------------------------------

  const FocusLabel := " focusing on: "
  const Closing := " and suggest improvements"

  /** The `analyze` instruction: the directory, the focus areas joined by ", " when there are
      any, and the closing words, with nothing between them. The focus areas, when present,
      are the list the analysis dialogue builds. */
  function AnalyzeInstruction(params: Bag): (r: string)
    requires "project_dir" in params
    requires "focus_areas" in params ==> params["focus_areas"].List?
    ensures "Analyze the project in " + Text(params["project_dir"]) <= r
    ensures EndsWith(r, Closing)
    ensures Truthy(Get(params, "focus_areas")) ==>
      EndsWith(r, FocusLabel + Join(params["focus_areas"].items, ", ") + Closing)
    ensures !Truthy(Get(params, "focus_areas")) ==>
      r == "Analyze the project in " + Text(params["project_dir"]) + Closing
    ensures Truthy(Get(params, "focus_areas")) ==>
      |r| == |"Analyze the project in " + Text(params["project_dir"])|
        + |FocusLabel + Join(params["focus_areas"].items, ", ") + Closing|
  {
    var head := "Analyze the project in " + Text(params["project_dir"]);
    var focus := if Truthy(Get(params, "focus_areas")) then
        FocusLabel + Join(params["focus_areas"].items, ", ")
      else "";
    var r := head + focus + Closing;
    assert r == head + (focus + Closing);
    r
  }

  /** The command line of `analyze`. */
  datatype AnalyzeArgs = AnalyzeArgs(projectDir: Option<string>)

  function AnalyzeBag(args: AnalyzeArgs): (r: Bag)
    ensures r.Keys == {"project_dir"}
  {
    map["project_dir" := OptPath(args.projectDir)]
  }

  /** The instruction `analyze` sends after its dialogue. */
  function DialogueInstruction(projectDirInput: string, aspects: string, confirms: seq<bool>): (r: string)
    requires |confirms| == |Split(aspects, '\n')|
    ensures EndsWith(r, Closing)
  {
    AnalyzeInstruction(AnalysisParams(projectDirInput, aspects, confirms))
  }

  /** The command `analyze`: the dialogue, which never repeats, takes the typed directory, the
      agent's list of aspects and one confirmation per line of it. */
  function AnalyzeCommand(args: AnalyzeArgs, interactive: bool, projectDirInput: string,
                          aspects: string, confirms: seq<bool>): (r: string)
    requires |confirms| == |Split(aspects, '\n')|
    ensures EndsWith(r, Closing)
    ensures !interactive && args.projectDir.Some? ==>
      r == "Analyze the project in " + PathString(args.projectDir.value) + Closing
  {
    var params := AnalyzeBag(args);
    AnalyzeGate(args);
    if interactive || ShouldUseHil("analyze", params) then
      DialogueInstruction(projectDirInput, aspects, confirms)
    else
      PlainInstruction(args.projectDir.value);
      AnalyzeInstruction(params)
  }

  /** Without focus areas the instruction is the directory and the closing words. */
  lemma PlainInstruction(dir: string)
    ensures AnalyzeInstruction(AnalyzeBag(AnalyzeArgs(Some(dir))))
      == "Analyze the project in " + PathString(dir) + Closing
  {
    var params := AnalyzeBag(AnalyzeArgs(Some(dir)));
    assert Get(params, "focus_areas") == Null;
    assert Text(params["project_dir"]) == PathString(dir);
  }

  /** The directory option is a `Path`, and every `Path` is true: `analyze` asks for the
      dialogue exactly when `--project-dir` is not given at all. An empty `--project-dir ""` is
      `Path(".")`, which skips the dialogue. */
  lemma AnalyzeGate(args: AnalyzeArgs)
    ensures ShouldUseHil("analyze", AnalyzeBag(args)) <==> args.projectDir.None?
  {
    OptPathTruthy(args.projectDir);
  }

  /** `analyze --project-dir ""` analyses the current directory without asking anything. */
  lemma AnalyzeEmptyDirectory(projectDirInput: string, aspects: string, confirms: seq<bool>)
    requires |confirms| == |Split(aspects, '\n')|
    ensures AnalyzeCommand(AnalyzeArgs(Some("")), false, projectDirInput, aspects, confirms)
      == "Analyze the project in ." + Closing
  {
    CurrentDirectory();
  }

  /** Whenever the dialogue runs, which is with `--interactive` or without `--project-dir`,
      the instruction names the typed directory, "." by default, and lists exactly the
      confirmed areas: none confirmed gives the plain instruction, some confirmed gives them
      joined by ", " before the closing words. */
  lemma AnalyzeFocus(args: AnalyzeArgs, interactive: bool, projectDirInput: string, aspects: string,
                     confirms: seq<bool>)
    requires |confirms| == |Split(aspects, '\n')|
    requires interactive || args.projectDir.None?
    ensures var r := AnalyzeCommand(args, interactive, projectDirInput, aspects, confirms);
      var head := "Analyze the project in " + PathString(Answer(projectDirInput, "."));
      var areas := Candidates(Hil.Kept(Split(aspects, '\n'), confirms));
      && (areas == [] ==> r == head + Closing)
      && (areas != [] ==> r == head + FocusLabel + Join(areas, ", ") + Closing)
  {
    AnalyzeGate(args);
    var params := AnalysisParams(projectDirInput, aspects, confirms);
    assert AnalyzeCommand(args, interactive, projectDirInput, aspects, confirms) == AnalyzeInstruction(params);
    InstructionText(params, Answer(projectDirInput, "."), Candidates(Hil.Kept(Split(aspects, '\n'), confirms)));
  }

  /** The instruction for a directory and a list of areas: the areas appear, joined, exactly
      when there are any. */
  lemma InstructionText(params: Bag, dir: string, areas: seq<string>)
    requires "project_dir" in params && params["project_dir"] == PathOf(dir)
    requires "focus_areas" in params && params["focus_areas"] == List(areas)
    ensures var head := "Analyze the project in " + PathString(dir);
      && (areas == [] ==> AnalyzeInstruction(params) == head + Closing)
      && (areas != [] ==> AnalyzeInstruction(params) == head + FocusLabel + Join(areas, ", ") + Closing)
  {
    assert Text(params["project_dir"]) == PathString(dir);
    assert Truthy(Get(params, "focus_areas")) <==> areas != [];
  }
}

=== FILE: delegates.dfy ===
/** What the `create_project` and `apply_snippet` tools of scaffai/agent.py hand to the
    commands of scaffai/cli.py. The tools call the command functions `new` and `add_snippet`
    directly, as plain Python functions, and leave out their `interactive` argument. Its default
    is then not `None` but the option object `typer.Option(None, ...)`, which, like any object
    without `__bool__` or `__len__`, is true. So the command always runs the dialogue, even
    though the tool has just supplied every field. This module models that call as written and
    the call with `interactive=False` that the tools evidently intend. */
module Delegates {

  import opened Wrappers
  import opened Strings
  import opened Paths
  import opened Values
  import opened Hil
  import opened Cli
  import opened Tools

  /** `p.get(key)` on the parsed JSON object. */
  function Field(fields: map<string, string>, key: string): Option<string>
  {
    if key in fields then Some(fields[key]) else None
  }

  /** The command line `_create_project` gives `new`: the name and the template, the output
      directory `Path(p.get("output_dir", "."))`, and the optional username and database. */
  function CreateArgs(fields: map<string, string>): (args: NewArgs)
    requires "name" in fields && "template" in fields
    ensures args.name == Some(fields["name"]) && args.template == Some(fields["template"])
    ensures args.output == Some(if "output_dir" in fields then fields["output_dir"] else ".")
    ensures args.username.Some? <==> "username" in fields
    ensures "username" in fields ==> args.username.value == fields["username"]
    ensures args.db.Some? <==> "db" in fields
    ensures "db" in fields ==> args.db.value == fields["db"]
  {
    NewArgs(Some(fields["name"]), Some(fields["template"]),
            Some(if "output_dir" in fields then fields["output_dir"] else "."),
            Field(fields, "username"), Field(fields, "db"))
  }

  /** The instruction `new` sends when `_create_project` calls it with `interactive` set as
      given: nothing when the JSON is malformed or a required key is missing (the tool fails
      before the call), or when the dialogue never ends. */
  function CreateProjectCall(params: Json, interactive: bool, rounds: seq<ProjectRound>): (r: Option<string>)
    ensures params.Malformed? ==> r.None?
    ensures params.Object? && !("name" in params.fields && "template" in params.fields) ==> r.None?
  {
    match params
    case Malformed(_) => None
    case Object(f) =>
      if "name" in f && "template" in f then NewCommand(CreateArgs(f), interactive, rounds)
      else None
  }

  /** The call as written: the left-out `interactive` is the true option object. */
  function CreateProjectAsWritten(params: Json, rounds: seq<ProjectRound>): Option<string>
  {
    CreateProjectCall(params, true, rounds)
  }

  /** The call as intended: no dialogue unless a field the command needs is empty. */
  function CreateProjectCorrected(params: Json, rounds: seq<ProjectRound>): Option<string>
  {
    CreateProjectCall(params, false, rounds)
  }

  /** As written, a complete request still waits on the user: with no answers no instruction
      is sent at all, and otherwise the first confirmed round decides everything but the name.
      The requested template plays no part: any other template gives the same instruction, and
      a user who accepts the default gets "python". */
  lemma CreateProjectAsWrittenAsks(fields: map<string, string>, other: string,
                                   rounds: seq<ProjectRound>, k: nat)
    requires "name" in fields && "template" in fields && fields["name"] != ""
    requires k < |rounds| && rounds[k].proceed
    requires forall j :: 0 <= j < k ==> !rounds[j].proceed
    ensures CreateProjectAsWritten(Object(fields), []) == None
    ensures CreateProjectAsWritten(Object(fields), rounds)
      == Some(NewInstruction(ProjectParams(fields["name"], rounds[k])))
    ensures CreateProjectAsWritten(Object(fields), rounds)
      == CreateProjectAsWritten(Object(fields["template" := other]), rounds)
    ensures rounds[k].templateInput == "" ==>
      ProjectParams(fields["name"], rounds[k])["template"] == Str("python")
  {
    NameSticks(fields["name"], rounds, k);
  }

  /** Corrected, a request with a non-empty name and template is sent at once, whatever the
      user would answer. The instruction starts by naming the requested project, template and
      output directory (the current directory when "output_dir" is left out). */
  lemma CreateProjectCorrectedSends(fields: map<string, string>, rounds: seq<ProjectRound>)
    requires "name" in fields && "template" in fields
    requires fields["name"] != "" && fields["template"] != ""
    ensures var r := CreateProjectCorrected(Object(fields), rounds);
      var output := if "output_dir" in fields then fields["output_dir"] else ".";
      && r.Some?
      && r == CreateProjectCorrected(Object(fields), [])
      && "Create a new project named '" + fields["name"] + "' using the " + fields["template"]
           + " template. Output directory: " + PathString(output) <= r.value
  {
    var args := CreateArgs(fields);
    var output := if "output_dir" in fields then fields["output_dir"] else ".";
    assert args.output == Some(output);
    assert CreateProjectCorrected(Object(fields), rounds) == NewCommand(args, false, rounds);
    assert CreateProjectCorrected(Object(fields), []) == NewCommand(args, false, []);
    NewSendsAtOnce(fields["name"], fields["template"], output, args, rounds);
  }

  /** The command line `_apply_snippet` gives `add_snippet`. */
  function ApplyArgs(fields: map<string, string>): (args: SnippetArgs)
    requires "snippet" in fields && "template" in fields && "project_dir" in fields
    ensures args.snippet == Some(fields["snippet"]) && args.template == Some(fields["template"])
    ensures args.projectDir == Some(fields["project_dir"])
  {
    SnippetArgs(Some(fields["snippet"]), Some(fields["template"]), Some(fields["project_dir"]))
  }

  /** The instruction `add_snippet` sends when `_apply_snippet` calls it. */
  function ApplySnippetCall(params: Json, interactive: bool, rounds: seq<SnippetRound>): (r: Option<string>)
    ensures params.Malformed? ==> r.None?
    ensures (params.Object? && !("snippet" in params.fields && "template" in params.fields
             && "project_dir" in params.fields)) ==> r.None?
  {
    match params
    case Malformed(_) => None
    case Object(f) =>
      if "snippet" in f && "template" in f && "project_dir" in f then
        AddSnippetCommand(ApplyArgs(f), interactive, rounds)
      else None
  }

  function ApplySnippetAsWritten(params: Json, rounds: seq<SnippetRound>): Option<string>
  {
    ApplySnippetCall(params, true, rounds)
  }

  function ApplySnippetCorrected(params: Json, rounds: seq<SnippetRound>): Option<string>
  {
    ApplySnippetCall(params, false, rounds)
  }

  /** As written, a complete request waits on the user: with no answers nothing is sent, and
      otherwise the snippet and the directory named are those typed in the first confirmed
      round, the directory "." by default; only the requested template is kept. The requested
      directory plays no part: any other gives the same instruction. */
  lemma ApplySnippetAsWrittenAsks(fields: map<string, string>, other: string,
                                  rounds: seq<SnippetRound>, k: nat)
    requires "snippet" in fields && "template" in fields && "project_dir" in fields
    requires k < |rounds| && rounds[k].proceed
    requires forall j :: 0 <= j < k ==> !rounds[j].proceed
    ensures ApplySnippetAsWritten(Object(fields), []) == None
    ensures var r := ApplySnippetAsWritten(Object(fields), rounds);
      && r.Some?
      && NamesSnippet(r.value, rounds[k].snippetInput, RoundTemplate(Some(fields["template"]), rounds[0]),
                      PathString(Answer(rounds[k].projectDirInput, ".")))
    ensures ApplySnippetAsWritten(Object(fields), rounds)
      == ApplySnippetAsWritten(Object(fields["project_dir" := other]), rounds)
  {
    var args := ApplyArgs(fields);
    assert ApplySnippetAsWritten(Object(fields), []) == AddSnippetCommand(args, true, []);
    assert ApplySnippetAsWritten(Object(fields), rounds) == AddSnippetCommand(args, true, rounds);
    AddSnippetDialogue(args, true, rounds, k);
    TemplateSticks(args.template, rounds, k);
    TemplateSticks(ApplyArgs(fields["project_dir" := other]).template, rounds, k);
  }

  /** Corrected, a request with a non-empty snippet and template is sent at once and names
      the requested snippet, template and directory. */
  lemma ApplySnippetCorrectedSends(fields: map<string, string>, rounds: seq<SnippetRound>)
    requires "snippet" in fields && "template" in fields && "project_dir" in fields
    requires fields["snippet"] != "" && fields["template"] != ""
    ensures var r := ApplySnippetCorrected(Object(fields), rounds);
      && r.Some?
      && r == ApplySnippetCorrected(Object(fields), [])
      && NamesSnippet(r.value, fields["snippet"], fields["template"], PathString(fields["project_dir"]))
  {
    var args := ApplyArgs(fields);
    assert Truthy(OptStr(args.snippet)) && Truthy(OptStr(args.template));
    var bag := SnippetBag(args);
    assert Text(bag["snippet"]) == fields["snippet"];
    assert Text(bag["template"]) == fields["template"];
    assert Text(bag["project_dir"]) == PathString(fields["project_dir"]);
    var sent := SnippetInstruction(bag);
    assert ApplySnippetCorrected(Object(fields), rounds) == AddSnippetCommand(args, false, rounds) == Some(sent);
    assert ApplySnippetCorrected(Object(fields), []) == AddSnippetCommand(args, false, []) == Some(sent);
  }
}

=== FILE: hil.dfy ===
/** The human-in-the-loop dialogues of scaffai/hil.py. Everything the user types and everything
    the agent replies is an input here: a dialogue is modelled as the sequence of rounds the user
    goes through, each round holding the answers given in it, and the result is the parameter
    bag the dialogue returns. A dialogue whose user never confirms within the given rounds
    returns nothing. */
module Hil {

  import opened Wrappers
  import opened Strings
  import opened Values

  // ---------------------------------------------------------------------------------------
  // should_use_hil
  // ---------------------------------------------------------------------------------------

  /** The commands that can run without a dialogue. */
  predicate Known(command: string)
  {
    command == "new" || command == "add_snippet" || command == "analyze"
  }

  /** The parameters a known command needs before it can skip the dialogue. */
  function Required(command: string): (keys: seq<string>)
    requires Known(command)
    ensures |keys| > 0
  {
    if command == "new" then ["name", "template"]
    else if command == "add_snippet" then ["snippet", "template"]
    else ["project_dir"]
  }

  /** `should_use_hil`: the dialogue is skipped exactly for a known command whose required
      parameters are all true-valued; an unknown command always gets the dialogue. */
  function ShouldUseHil(command: string, params: Bag): (r: bool)
    ensures !r <==> Known(command) && forall k :: k in Required(command) ==> Truthy(Get(params, k))
    ensures !Known(command) ==> r
  {
    if command == "new" then
      !(Truthy(Get(params, "name")) && Truthy(Get(params, "template")))
    else if command == "add_snippet" then
      !(Truthy(Get(params, "snippet")) && Truthy(Get(params, "template")))
    else if command == "analyze" then
      !Truthy(Get(params, "project_dir"))
    else true
  }

  /** Only the required parameters matter: two bags that agree on them get the same answer. */
  lemma ShouldUseHilOnlyRequired(command: string, p: Bag, q: Bag)
    requires Known(command)
    requires forall k :: k in Required(command) ==> Truthy(Get(p, k)) == Truthy(Get(q, k))
    ensures ShouldUseHil(command, p) == ShouldUseHil(command, q)
  {
  }

  // ---------------------------------------------------------------------------------------
  // Prompts
  // ---------------------------------------------------------------------------------------

  /** What `Prompt.ask(..., default=d)` returns for the typed text: the default for an empty
      answer, the answer otherwise. */
  function Answer(typed: string, default: string): (r: string)
    ensures default != "" ==> r != ""
    ensures typed == "" ==> r == default
    ensures typed != "" ==> r == typed
  {
    if typed == "" then default else typed
  }

  // ---------------------------------------------------------------------------------------
  // ask_project_details
  // ---------------------------------------------------------------------------------------

  /** One pass through the project dialogue. `nameInput` is read only when the dialogue has no
      true-valued name yet; `usernameInput` only when the agent's requirements mention a
      username; `wantsDatabase` only when they mention a database, and `databaseInput` only
      when the user then wants one. `proceed` is the answer to the final confirmation. */
  datatype ProjectRound = ProjectRound(
    nameInput: string,
    templateInput: string,
    requirements: string,
    usernameInput: string,
    wantsDatabase: bool,
    databaseInput: string,
    outputInput: string,
    proceed: bool)

  /** Whether the agent's requirements text asks for a username, and for a database:
      a case-insensitive substring test. */
  predicate AsksFor(requirements: string, word: string)
  {
    Contains(Lower(requirements), word)
  }

  /** The bag one round builds for the project `name`. */
  function ProjectParams(name: string, round: ProjectRound): (r: Bag)
    ensures "name" in r && "template" in r && "output" in r
    ensures r["name"] == Str(name)
    ensures r["template"] == Str(Answer(round.templateInput, "python")) && Truthy(r["template"])
    ensures r["output"] == PathOf(Answer(round.outputInput, "."))
    ensures "username" in r <==> AsksFor(round.requirements, "username")
    ensures "username" in r ==> r["username"] == Str(round.usernameInput)
    ensures "db" in r <==> AsksFor(round.requirements, "database") && round.wantsDatabase
    ensures "db" in r ==> r["db"] == Str(round.databaseInput)
    ensures forall k :: k in r ==> k in {"name", "template", "output", "username", "db"}
  {
    var base := map["name" := Str(name), "template" := Str(Answer(round.templateInput, "python"))];
    var withUser :=
      if AsksFor(round.requirements, "username") then base["username" := Str(round.usernameInput)]
      else base;
    var withDb :=
      if AsksFor(round.requirements, "database") && round.wantsDatabase then
        withUser["db" := Str(round.databaseInput)]
      else withUser;
    withDb["output" := PathOf(Answer(round.outputInput, "."))]
  }

  /** The name a round works with: the one the dialogue already has if it is true-valued, else
      the one typed in that round. */
  function RoundName(name: Option<string>, round: ProjectRound): string
  {
    if Truthy(OptStr(name)) then name.value else round.nameInput
  }

  /** `ask_project_details(name)`: every round that is not confirmed starts the dialogue again
      with the name of that round. */
  function ProjectDialogue(name: Option<string>, rounds: seq<ProjectRound>): (r: Option<Bag>)
    decreases |rounds|
    ensures r.Some? <==> exists i :: 0 <= i < |rounds| && rounds[i].proceed
    ensures r.Some? ==> "name" in r.value && "template" in r.value && "output" in r.value
  {
    if rounds == [] then None
    else
      var n := RoundName(name, rounds[0]);
      if rounds[0].proceed then Some(ProjectParams(n, rounds[0]))
      else
        var r := ProjectDialogue(Some(n), rounds[1..]);
        assert forall i :: 0 <= i < |rounds[1..]| ==> rounds[1..][i] == rounds[i + 1];
        assert r.Some? ==> exists i :: 1 <= i < |rounds| && rounds[i].proceed;
        r
  }

  /** A round that is not confirmed hands its name on to the next pass. */
  lemma DialogueRetries(name: Option<string>, rounds: seq<ProjectRound>)
    requires rounds != [] && !rounds[0].proceed
    ensures ProjectDialogue(name, rounds) == ProjectDialogue(Some(RoundName(name, rounds[0])), rounds[1..])
  {
  }

  /** A confirmed round ends the dialogue with its bag. */
  lemma DialogueEnds(name: Option<string>, rounds: seq<ProjectRound>)
    requires rounds != [] && rounds[0].proceed
    ensures ProjectDialogue(name, rounds) == Some(ProjectParams(RoundName(name, rounds[0]), rounds[0]))
  {
  }

  /** The first confirmed round decides the result; a name the dialogue was given stays, and
      everything typed in the rounds before is discarded. */
  lemma {:induction false} NameSticks(name: string, rounds: seq<ProjectRound>, k: nat)
    requires name != ""
    requires k < |rounds| && rounds[k].proceed
    requires forall j :: 0 <= j < k ==> !rounds[j].proceed
    ensures ProjectDialogue(Some(name), rounds) == Some(ProjectParams(name, rounds[k]))
    decreases k
  {
    assert RoundName(Some(name), rounds[0]) == name;
    if k > 0 {
      DialogueRetries(Some(name), rounds);
      NameSticks(name, rounds[1..], k - 1);
    } else {
      DialogueEnds(Some(name), rounds);
    }
  }

  /** Without a name, a name typed in the first round stays for every later round. */
  lemma FirstNameSticks(rounds: seq<ProjectRound>, k: nat)
    requires |rounds| > 0 && rounds[0].nameInput != ""
    requires k < |rounds| && rounds[k].proceed
    requires forall j :: 0 <= j < k ==> !rounds[j].proceed
    ensures ProjectDialogue(None, rounds) == Some(ProjectParams(rounds[0].nameInput, rounds[k]))
  {
    var n := rounds[0].nameInput;
    assert RoundName(None, rounds[0]) == n == RoundName(Some(n), rounds[0]);
    if rounds[0].proceed {
      DialogueEnds(None, rounds);
      DialogueEnds(Some(n), rounds);
    } else {
      DialogueRetries(None, rounds);
      DialogueRetries(Some(n), rounds);
    }
    NameSticks(n, rounds, k);
  }

  /** The first non-empty text of `names`, or "" when there is none. */
  function FirstNonEmpty(names: seq<string>): (r: string)
    ensures r == "" <==> forall i :: 0 <= i < |names| ==> names[i] == ""
    ensures r != "" ==> r in names
  {
    if names == [] then ""
    else if names[0] != "" then names[0]
    else FirstNonEmpty(names[1..])
  }

  /** The first non-empty text of a concatenation is the first of its front part, when that
      part has one, and otherwise the first of its back part. */
  lemma {:induction false} FirstNonEmptyAppend(a: seq<string>, b: seq<string>)
    ensures FirstNonEmpty(a + b) == if FirstNonEmpty(a) != "" then FirstNonEmpty(a) else FirstNonEmpty(b)
  {
    if a != [] {
      assert (a + b)[0] == a[0] && (a + b)[1..] == a[1..] + b;
      FirstNonEmptyAppend(a[1..], b);
    } else {
      assert a + b == b;
    }
  }

  /** The names typed in `rounds`, in order. */
  function NameInputs(rounds: seq<ProjectRound>): (r: seq<string>)
    ensures |r| == |rounds|
    ensures forall i :: 0 <= i < |rounds| ==> r[i] == rounds[i].nameInput
  {
    if rounds == [] then [] else [rounds[0].nameInput] + NameInputs(rounds[1..])
  }

  /** The name the dialogue was given, as a list of at most one. */
  function Given(name: Option<string>): (r: seq<string>)
    ensures |r| <= 1
  {
    if name.Some? then [name.value] else []
  }

  /** A round keeps the name it has when that name is non-empty and otherwise takes the one
      typed in it. */
  lemma RoundNameFirst(name: Option<string>, round: ProjectRound)
    ensures RoundName(name, round) == FirstNonEmpty(Given(name) + [round.nameInput])
  {
    if name.Some? && name.value != "" {
      assert (Given(name) + [round.nameInput])[0] == name.value;
    } else if name.Some? {
      assert (Given(name) + [round.nameInput])[1..] == [round.nameInput];
    } else {
      assert Given(name) + [round.nameInput] == [round.nameInput];
    }
  }

  /** The first confirmed round `k` decides the bag, and the name in it is the first
      non-empty one among the name the dialogue was given and those typed in rounds 0 to `k`:
      a name once known is never asked again, and an empty one is asked again in every
      round. */
  lemma {:induction false} DialogueName(name: Option<string>, rounds: seq<ProjectRound>, k: nat)
    requires k < |rounds| && rounds[k].proceed
    requires forall j :: 0 <= j < k ==> !rounds[j].proceed
    ensures ProjectDialogue(name, rounds)
      == Some(ProjectParams(FirstNonEmpty(Given(name) + NameInputs(rounds[..k + 1])), rounds[k]))
    decreases k
  {
    var n := RoundName(name, rounds[0]);
    if k == 0 {
      RoundNameFirst(name, rounds[0]);
      assert NameInputs(rounds[..1]) == [rounds[0].nameInput];
      DialogueEnds(name, rounds);
    } else {
      DialogueRetries(name, rounds);
      DialogueName(Some(n), rounds[1..], k - 1);
      NamesCarry(name, rounds, k);
    }
  }

  /** The names a later pass sees: the name a first round settles on, then those typed after
      it, have the same first non-empty one as the whole sequence. */
  lemma NamesCarry(name: Option<string>, rounds: seq<ProjectRound>, k: nat)
    requires 0 < k < |rounds|
    ensures FirstNonEmpty(Given(Some(RoundName(name, rounds[0]))) + NameInputs(rounds[1..][..k]))
      == FirstNonEmpty(Given(name) + NameInputs(rounds[..k + 1]))
  {
    RoundNameFirst(name, rounds[0]);
    NameInputsFront(rounds, k);
    FirstNonEmptySettled(Given(name), rounds[0].nameInput, NameInputs(rounds[1..][..k]));
  }

  /** The names typed up to round `k`: the first round's, then those of the rounds after it. */
  lemma NameInputsFront(rounds: seq<ProjectRound>, k: nat)
    requires 0 < k < |rounds|
    ensures NameInputs(rounds[..k + 1]) == [rounds[0].nameInput] + NameInputs(rounds[1..][..k])
  {
    assert rounds[1..][..k] == rounds[..k + 1][1..];
  }

  /** Settling on the first non-empty text of a front part and then reading on gives the first
      non-empty text of the whole. */
  lemma FirstNonEmptySettled(given: seq<string>, first: string, rest: seq<string>)
    ensures FirstNonEmpty([FirstNonEmpty(given + [first])] + rest) == FirstNonEmpty(given + ([first] + rest))
  {
    var n := FirstNonEmpty(given + [first]);
    assert given + ([first] + rest) == (given + [first]) + rest;
    FirstNonEmptyAppend(given + [first], rest);
    FirstNonEmptyAppend([n], rest);
    assert FirstNonEmpty([n]) == n by {
      assert n == "" ==> [n][1..] == [];
    }
  }

  // ---------------------------------------------------------------------------------------
  // ask_snippet_details
  // ---------------------------------------------------------------------------------------

  /** One pass through the snippet dialogue: `templateInput` is read only when the dialogue has
      no true-valued template yet. */
  datatype SnippetRound = SnippetRound(
    templateInput: string,
    snippetInput: string,
    projectDirInput: string,
    proceed: bool)

  /** The template a round works with. */
  function RoundTemplate(template: Option<string>, round: SnippetRound): (t: string)
    ensures t != ""
  {
    if Truthy(OptStr(template)) then template.value else Answer(round.templateInput, "python")
  }

  /** The bag a confirmed round returns. */
  function SnippetParams(template: string, round: SnippetRound): (r: Bag)
    ensures r.Keys == {"snippet", "template", "project_dir"}
    ensures r["snippet"] == Str(round.snippetInput) && r["template"] == Str(template)
    ensures r["project_dir"] == PathOf(Answer(round.projectDirInput, "."))
  {
    map["snippet" := Str(round.snippetInput), "template" := Str(template),
        "project_dir" := PathOf(Answer(round.projectDirInput, "."))]
  }

  /** `ask_snippet_details(template)`: an unconfirmed round starts again with its template. */
  function SnippetDialogue(template: Option<string>, rounds: seq<SnippetRound>): (r: Option<Bag>)
    decreases |rounds|
    ensures r.Some? <==> exists i :: 0 <= i < |rounds| && rounds[i].proceed
    ensures r.Some? ==> r.value.Keys == {"snippet", "template", "project_dir"}
  {
    if rounds == [] then None
    else
      var t := RoundTemplate(template, rounds[0]);
      if rounds[0].proceed then Some(SnippetParams(t, rounds[0]))
      else
        var r := SnippetDialogue(Some(t), rounds[1..]);
        assert forall i :: 0 <= i < |rounds[1..]| ==> rounds[1..][i] == rounds[i + 1];
        assert r.Some? ==> exists i :: 1 <= i < |rounds| && rounds[i].proceed;
        r
  }

  /** The template is settled in the first round (given, typed, or the "python" default) and
      never asked again; the snippet and directory come from the first confirmed round. */
  lemma {:induction false} TemplateSticks(template: Option<string>, rounds: seq<SnippetRound>, k: nat)
    requires k < |rounds| && rounds[k].proceed
    requires forall j :: 0 <= j < k ==> !rounds[j].proceed
    ensures SnippetDialogue(template, rounds)
      == Some(SnippetParams(RoundTemplate(template, rounds[0]), rounds[k]))
    decreases k
  {
    if k > 0 {
      var t := RoundTemplate(template, rounds[0]);
      TemplateSticks(Some(t), rounds[1..], k - 1);
      assert RoundTemplate(Some(t), rounds[1..][0]) == t;
    }
  }

  // ---------------------------------------------------------------------------------------
  // ask_analysis_details
  // ---------------------------------------------------------------------------------------

  /** The stripped non-blank lines: what the user is asked about, in order. */
  function Candidates(lines: seq<string>): seq<string>
  {
    if lines == [] then []
    else (if Strip(lines[0]) != "" then [Strip(lines[0])] else []) + Candidates(lines[1..])
  }

  /** The asked-about lines are not blank, have nothing left to strip, and, like the lines of
      a split reply, hold no line break. */
  lemma {:induction false} CandidatesClean(lines: seq<string>)
    requires forall j :: 0 <= j < |lines| ==> '\n' !in lines[j]
    ensures forall a :: a in Candidates(lines) ==> a != "" && Strip(a) == a && '\n' !in a
  {
    if lines != [] {
      CandidatesClean(lines[1..]);
      var a := Strip(lines[0]);
      CleanLine(lines[0]);
      var c := Candidates(lines);
      assert c == (if a != "" then [a] else []) + Candidates(lines[1..]);
      forall x | x in c
        ensures x != "" && Strip(x) == x && '\n' !in x
      {
        if x !in Candidates(lines[1..]) {
          assert x == a;
        }
      }
    }
  }

  /** One stripped line has nothing left to strip and no line break the line lacked. */
  lemma CleanLine(line: string)
    requires '\n' !in line
    ensures Strip(Strip(line)) == Strip(line) && '\n' !in Strip(line)
  {
    StripIdempotent(line);
  }

  /** The focus areas: each line of the agent's reply that is not blank, stripped, kept when
      the user confirms it. `confirms[i]` is the answer given for line `i`; lines that are
      blank are never asked about, so their entry is ignored. */
  function FocusAreas(lines: seq<string>, confirms: seq<bool>): (r: seq<string>)
    requires |confirms| == |lines|
    ensures forall a :: a in r ==> a in Candidates(lines)
  {
    if lines == [] then []
    else
      var a := Strip(lines[0]);
      var rest := FocusAreas(lines[1..], confirms[1..]);
      (if a != "" && confirms[0] then [a] else []) + rest
  }

  /** `a` is `b` with some elements left out. */
  predicate Subsequence(a: seq<string>, b: seq<string>)
  {
    if a == [] then true
    else if b == [] then false
    else if a[0] == b[0] then Subsequence(a[1..], b[1..])
    else Subsequence(a, b[1..])
  }

  /** Putting an element in front of the longer sequence keeps a subsequence one. */
  lemma {:induction false} SubsequenceOfTail(a: seq<string>, x: string, b: seq<string>)
    requires Subsequence(a, b)
    ensures Subsequence(a, [x] + b)
    decreases |b| + 1, 0
  {
    assert ([x] + b)[1..] == b;
    if a != [] && a[0] == x {
      SubsequenceDrop(a, b);
    }
  }

  /** Leaving out the head of a subsequence keeps it one. */
  lemma {:induction false} SubsequenceDrop(a: seq<string>, b: seq<string>)
    requires a != [] && Subsequence(a, b)
    ensures Subsequence(a[1..], b)
    decreases |b|, 1
  {
    assert [b[0]] + b[1..] == b;
    if a[0] != b[0] {
      SubsequenceDrop(a, b[1..]);
    }
    SubsequenceOfTail(a[1..], b[0], b[1..]);
  }

  /** The confirmed areas are the asked-about lines with some left out, in order. */
  lemma {:induction false} FocusAreasChosen(lines: seq<string>, confirms: seq<bool>)
    requires |confirms| == |lines|
    ensures Subsequence(FocusAreas(lines, confirms), Candidates(lines))
  {
    if lines != [] {
      FocusAreasChosen(lines[1..], confirms[1..]);
      var a := Strip(lines[0]);
      var rest := FocusAreas(lines[1..], confirms[1..]);
      var cands := Candidates(lines[1..]);
      if a == "" {
        assert FocusAreas(lines, confirms) == rest && Candidates(lines) == cands;
      } else if confirms[0] {
        assert FocusAreas(lines, confirms) == [a] + rest && Candidates(lines) == [a] + cands;
        assert ([a] + rest)[1..] == rest && ([a] + cands)[1..] == cands;
      } else {
        assert FocusAreas(lines, confirms) == rest && Candidates(lines) == [a] + cands;
        SubsequenceOfTail(rest, a, cands);
      }
    }
  }

  /** The lines the user said yes to, as they were written. */
  function Kept(lines: seq<string>, confirms: seq<bool>): (r: seq<string>)
    requires |confirms| == |lines|
    ensures |r| <= |lines|
  {
    if lines == [] then []
    else (if confirms[0] then [lines[0]] else []) + Kept(lines[1..], confirms[1..])
  }

  /** The focus areas are exactly the candidates among the confirmed lines: every confirmed
      line that is not blank gives its stripped text, in order, and nothing else is kept. */
  lemma {:induction false} FocusAreasAreConfirmedCandidates(lines: seq<string>, confirms: seq<bool>)
    requires |confirms| == |lines|
    ensures FocusAreas(lines, confirms) == Candidates(Kept(lines, confirms))
  {
    if lines != [] {
      FocusAreasAreConfirmedCandidates(lines[1..], confirms[1..]);
      var rest := Kept(lines[1..], confirms[1..]);
      if confirms[0] {
        assert Kept(lines, confirms) == [lines[0]] + rest;
        assert ([lines[0]] + rest)[1..] == rest;
      } else {
        assert Kept(lines, confirms) == rest;
      }
    }
  }

  /** Every answer yes: all the asked-about lines are focus areas. */
  lemma {:induction false} FocusAreasAllConfirmed(lines: seq<string>, confirms: seq<bool>)
    requires |confirms| == |lines|
    requires forall i :: 0 <= i < |confirms| ==> confirms[i]
    ensures FocusAreas(lines, confirms) == Candidates(lines)
  {
    if lines != [] {
      assert forall i :: 0 <= i < |confirms[1..]| ==> confirms[1..][i] == confirms[i + 1];
      FocusAreasAllConfirmed(lines[1..], confirms[1..]);
    }
  }

  /** Every answer no: there are no focus areas. */
  lemma {:induction false} FocusAreasNoneConfirmed(lines: seq<string>, confirms: seq<bool>)
    requires |confirms| == |lines|
    requires forall i :: 0 <= i < |confirms| ==> !confirms[i]
    ensures FocusAreas(lines, confirms) == []
  {
    if lines != [] {
      assert forall i :: 0 <= i < |confirms[1..]| ==> confirms[1..][i] == confirms[i + 1];
      FocusAreasNoneConfirmed(lines[1..], confirms[1..]);
    }
  }

  /** `ask_analysis_details`: the directory (default ".") and the confirmed focus areas of the
      agent's reply `aspects`, one confirmation per line. */
  function AnalysisParams(projectDirInput: string, aspects: string, confirms: seq<bool>): (r: Bag)
    requires |confirms| == |Split(aspects, '\n')|
    ensures r.Keys == {"project_dir", "focus_areas"}
    ensures r["project_dir"] == PathOf(Answer(projectDirInput, "."))
    ensures r["focus_areas"] == List(Candidates(Kept(Split(aspects, '\n'), confirms)))
    ensures forall a :: a in r["focus_areas"].items ==> a != "" && Strip(a) == a && '\n' !in a
  {
    var areas := ReplyAreas(aspects, confirms);
    map["project_dir" := PathOf(Answer(projectDirInput, ".")), "focus_areas" := List(areas)]
  }

  /** The focus areas of the reply `aspects`: its confirmed candidates, each clean. */
  function ReplyAreas(aspects: string, confirms: seq<bool>): (r: seq<string>)
    requires |confirms| == |Split(aspects, '\n')|
    ensures r == Candidates(Kept(Split(aspects, '\n'), confirms))
    ensures forall a :: a in r ==> a != "" && Strip(a) == a && '\n' !in a
  {
    var lines := Split(aspects, '\n');
    FocusAreasAreConfirmedCandidates(lines, confirms);
    CandidatesClean(lines);
    FocusAreas(lines, confirms)
  }
}

=== FILE: paths.dfy ===
/** The text of a POSIX `pathlib.Path`: `str(Path(p))`. The program builds paths from what the
    user typed (`Path(project_dir)`, `Path(output)`) and later writes them into instructions,
    so the normalisation `Path` applies is visible in its output. */
module Paths {

  import opened Strings

  /** The root `posixpath.splitroot` finds: none, "/", or exactly two leading slashes kept as
      "//" (POSIX leaves their meaning to the implementation); three or more collapse to "/". */
  function Root(p: string): (r: string)
    ensures r == "" || r == "/" || r == "//"
    ensures r <= p
    ensures r == "" <==> (|p| == 0 || p[0] != '/')
  {
    if |p| == 0 || p[0] != '/' then ""
    else if |p| >= 2 && p[1] == '/' && !(|p| >= 3 && p[2] == '/') then "//"
    else "/"
  }

  /** A component `Path` keeps: not empty (from doubled or trailing slashes) and not ".". */
  predicate Kept(piece: string)
  {
    |piece| > 0 && piece != "."
  }

  /** The components kept from the slash-separated pieces, in order. */
  function KeepParts(pieces: seq<string>): (r: seq<string>)
    ensures |r| <= |pieces|
    ensures forall i :: 0 <= i < |r| ==> Kept(r[i]) && r[i] in pieces
    ensures (forall i :: 0 <= i < |pieces| ==> Kept(pieces[i])) ==> r == pieces
  {
    if |pieces| == 0 then []
    else
      var rest := KeepParts(pieces[1..]);
      if Kept(pieces[0]) then [pieces[0]] + rest else rest
  }

  /** The components of `p` after its root. */
  function Parts(p: string): (r: seq<string>)
    ensures forall i :: 0 <= i < |r| ==> Kept(r[i]) && '/' !in r[i]
  {
    KeepParts(Split(p[|Root(p)|..], '/'))
  }

  /** `str(Path(p))` on POSIX: the root followed by the kept components joined by "/", or "."
      when that is empty. It is never empty and ends in "/" only when it is a bare root. */
  function PathString(p: string): (r: string)
    ensures r != ""
    ensures r == "/" || r == "//" || r[|r| - 1] != '/'
  {
    var parts := Parts(p);
    var s := Root(p) + Join(parts, "/");
    JoinEnd(parts);
    if s == "" then "." else s
  }

  /** The joined components neither start nor end with a slash. */
  lemma {:induction false} JoinEnd(parts: seq<string>)
    requires forall i :: 0 <= i < |parts| ==> Kept(parts[i]) && '/' !in parts[i]
    ensures |parts| == 0 <==> Join(parts, "/") == ""
    ensures |parts| > 0 ==> Kept(parts[0]) && |Join(parts, "/")| > 0
    ensures |parts| > 0 ==> Join(parts, "/")[0] == parts[0][0]
    ensures |parts| > 0 ==> Join(parts, "/")[|Join(parts, "/")| - 1] != '/'
  {
    if |parts| > 1 {
      JoinEnd(parts[1..]);
    }
    if |parts| > 0 {
      assert parts[0][0] in parts[0];
      var j := Join(parts, "/");
      if |parts| == 1 {
        assert j[|j| - 1] in parts[0];
      } else {
        var rest := Join(parts[1..], "/");
        assert j == parts[0] + "/" + rest;
        assert j[|j| - 1] == rest[|rest| - 1];
      }
    }
  }

  /** The empty text and "." both stand for the current directory, written ".". */
  lemma CurrentDirectory()
    ensures PathString("") == "." && PathString(".") == "."
  {
    assert Split("", '/') == [""];
    SplitNoSeparator(".", '/');
    assert Parts(".") == [];
  }

  /** Making a path out of a path's text changes nothing: `Path(str(Path(p))) == Path(p)`. */
  lemma PathStringIdempotent(p: string)
    ensures PathString(PathString(p)) == PathString(p)
  {
    var parts := Parts(p);
    var root := Root(p);
    var j := Join(parts, "/");
    JoinEnd(parts);
    var r := PathString(p);
    if root + j == "" {
      assert r == ".";
      SplitNoSeparator(".", '/');
      assert Parts(".") == [];
    } else {
      assert r == root + j;
      if |parts| > 0 {
        assert j[0] != '/' by {
          assert parts[0][0] in parts[0];
        }
        assert Root(r) == root;
        assert r[|root|..] == j;
        SplitJoin(parts, '/');
        assert Parts(r) == parts;
      } else {
        assert j == "";
        assert Root(r) == root;
        assert r[|root|..] == "";
        assert Parts(r) == [];
      }
    }
  }
}

=== FILE: strings.dfy ===
/** The Python `str` operations the modelled program relies on: `join`, `split` on one
    character, `strip`, `lower`, the `in` substring test, string ordering and `Path.stem`. */
module Strings {

  /** `sep.join(parts)`. */
  function Join(parts: seq<string>, sep: string): string
  {
    if |parts| == 0 then ""
    else if |parts| == 1 then parts[0]
    else parts[0] + sep + Join(parts[1..], sep)
  }

  /** `s.split(c)`: the pieces between occurrences of `c`; there is always at least one. */
  function Split(s: string, c: char): (r: seq<string>)
    ensures |r| >= 1
    ensures forall i :: 0 <= i < |r| ==> c !in r[i]
  {
    if |s| == 0 then [""]
    else
      var rest := Split(s[1..], c);
      if s[0] == c then [""] + rest
      else [[s[0]] + rest[0]] + rest[1..]
  }

  /** Splitting a string piece-free of `c` gives it back whole. */
  lemma {:induction false} SplitNoSeparator(s: string, c: char)
    requires c !in s
    ensures Split(s, c) == [s]
  {
    if |s| > 0 {
      SplitNoSeparator(s[1..], c);
      assert [s[0]] + s[1..] == s;
    }
  }

  /** One separator after a separator-free piece starts a new piece. */
  lemma {:induction false} SplitAfterPiece(a: string, c: char, rest: string)
    requires c !in a
    ensures Split(a + [c] + rest, c) == [a] + Split(rest, c)
  {
    if |a| == 0 {
      assert a + [c] + rest == [c] + rest;
      assert ([c] + rest)[1..] == rest;
    } else {
      assert (a + [c] + rest)[1..] == a[1..] + [c] + rest;
      SplitAfterPiece(a[1..], c, rest);
      assert [a[0]] + a[1..] == a;
    }
  }

  /** Splitting undoes joining, as long as no piece contains the separator. */
  lemma {:induction false} SplitJoin(parts: seq<string>, c: char)
    requires |parts| >= 1
    requires forall i :: 0 <= i < |parts| ==> c !in parts[i]
    ensures Split(Join(parts, [c]), c) == parts
  {
    if |parts| == 1 {
      SplitNoSeparator(parts[0], c);
    } else {
      SplitJoin(parts[1..], c);
      SplitAfterPiece(parts[0], c, Join(parts[1..], [c]));
      assert [parts[0]] + parts[1..] == parts;
    }
  }

  /** Joining undoes splitting. */
  lemma {:induction false} JoinSplit(s: string, c: char)
    ensures Join(Split(s, c), [c]) == s
  {
    if |s| > 0 {
      JoinSplit(s[1..], c);
      var rest := Split(s[1..], c);
      if s[0] != c {
        assert [s[0]] + s[1..] == s;
        if |rest| == 1 {
          assert Join([[s[0]] + rest[0]] + rest[1..], [c]) == [s[0]] + rest[0];
        } else {
          var r := [[s[0]] + rest[0]] + rest[1..];
          assert r[1..] == rest[1..];
          assert Join(r, [c]) == [s[0]] + rest[0] + [c] + Join(rest[1..], [c]);
        }
      } else {
        assert ([""] + rest)[1..] == rest;
      }
    }
  }

  /** Reads back a list written with `", ".join`: the pieces between commas, each piece after
      the first without the space that follows its comma. The empty text is the empty list. */
  function CommaItems(text: string): seq<string>
  {
    if text == "" then []
    else
      var pieces := Split(text, ',');
      [pieces[0]] + DropLead(pieces[1..])
  }

  /** Every piece without its first character. */
  function DropLead(ps: seq<string>): (r: seq<string>)
    ensures |r| == |ps|
  {
    if ps == [] then [] else [if ps[0] == "" then "" else ps[0][1..]] + DropLead(ps[1..])
  }

  /** Every piece with a space in front. */
  function Spaced(ps: seq<string>): (r: seq<string>)
    ensures |r| == |ps|
    ensures forall i :: 0 <= i < |ps| ==> r[i] == " " + ps[i]
  {
    if ps == [] then [] else [" " + ps[0]] + Spaced(ps[1..])
  }

  lemma {:induction false} DropLeadSpaced(ps: seq<string>)
    ensures DropLead(Spaced(ps)) == ps
  {
    if ps != [] {
      DropLeadSpaced(ps[1..]);
      assert (" " + ps[0])[1..] == ps[0];
      assert Spaced(ps)[1..] == Spaced(ps[1..]);
    }
  }

  /** Text in front of the first part goes in front of the whole join. */
  lemma JoinPrepend(a: string, xs: seq<string>, sep: string)
    requires xs != []
    ensures Join([a + xs[0]] + xs[1..], sep) == a + Join(xs, sep)
  {
    assert ([a + xs[0]] + xs[1..])[1..] == xs[1..];
  }

  /** Joining with ", " is joining with "," after putting a space in front of every later part. */
  lemma {:induction false} JoinCommaSpace(parts: seq<string>)
    requires |parts| >= 1
    ensures Join(parts, ", ") == Join([parts[0]] + Spaced(parts[1..]), ",")
  {
    if |parts| > 1 {
      var tail := parts[1..];
      JoinCommaSpace(tail);
      var q := [tail[0]] + Spaced(tail[1..]);
      JoinPrepend(" ", q, ",");
      assert Spaced(tail) == [" " + tail[0]] + Spaced(tail[1..]);
      assert [" " + q[0]] + q[1..] == Spaced(tail);
      var all := [parts[0]] + Spaced(tail);
      assert all[1..] == Spaced(tail);
    }
  }

  /** Reading back a ", "-joined list gives the parts, when none of them holds a comma and the
      first is not empty. */
  lemma CommaItemsJoin(parts: seq<string>)
    requires |parts| >= 1 && parts[0] != ""
    requires forall i :: 0 <= i < |parts| ==> ',' !in parts[i]
    ensures CommaItems(Join(parts, ", ")) == parts
  {
    var text := Join(parts, ", ");
    var q := [parts[0]] + Spaced(parts[1..]);
    JoinCommaSpace(parts);
    assert text == Join(q, [',']);
    CommaFreeSpaced(parts);
    SplitJoin(q, ',');
    assert text != "" by {
      assert parts[0] <= text;
    }
    ReadBackSpaced(parts, text);
  }

  lemma CommaFreeSpaced(parts: seq<string>)
    requires |parts| >= 1
    requires forall i :: 0 <= i < |parts| ==> ',' !in parts[i]
    ensures forall i :: 0 <= i < |parts| ==> ',' !in ([parts[0]] + Spaced(parts[1..]))[i]
  {
    var q := [parts[0]] + Spaced(parts[1..]);
    forall i | 0 <= i < |q|
      ensures ',' !in q[i]
    {
      if i > 0 {
        assert q[i] == " " + parts[i];
      }
    }
  }

  lemma ReadBackSpaced(parts: seq<string>, text: string)
    requires |parts| >= 1 && text != ""
    requires Split(text, ',') == [parts[0]] + Spaced(parts[1..])
    ensures CommaItems(text) == parts
  {
    var q := [parts[0]] + Spaced(parts[1..]);
    assert q[1..] == Spaced(parts[1..]);
    DropLeadSpaced(parts[1..]);
    assert [parts[0]] + parts[1..] == parts;
  }

  /** `needle in s`: `needle` occurs in `s` as a contiguous substring. */
  predicate Contains(s: string, needle: string)
  {
    needle <= s || (|s| > 0 && Contains(s[1..], needle))
  }

  /** Text put in front keeps every occurrence. */
  lemma {:induction false} ContainsAfter(p: string, s: string, t: string)
    requires Contains(s, t)
    ensures Contains(p + s, t)
  {
    if |p| == 0 {
      assert p + s == s;
    } else {
      assert (p + s)[1..] == p[1..] + s;
      ContainsAfter(p[1..], s, t);
    }
  }

  /** A joined string contains each of its parts. */
  lemma {:induction false} JoinContains(parts: seq<string>, sep: string, k: nat)
    requires k < |parts|
    ensures Contains(Join(parts, sep), parts[k])
  {
    if k == 0 {
      assert parts[0] <= Join(parts, sep);
    } else {
      JoinContains(parts[1..], sep, k - 1);
      ContainsAfter(parts[0] + sep, Join(parts[1..], sep), parts[k]);
    }
  }

  /** A string contains every one of its own suffixes. */
  lemma {:induction false} ContainsSuffix(s: string, t: string)
    ensures Contains(s + t, t)
  {
    if |s| > 0 {
      assert (s + t)[1..] == s[1..] + t;
      ContainsSuffix(s[1..], t);
    }
  }

  /** The parts of a three-part concatenation. */
  lemma Concat3(a: string, b: string, c: string)
    ensures a <= a + b + c && (a + b + c)[|a|..] == b + c
    ensures EndsWith(a + b + c, c)
    ensures c == "" ==> EndsWith(a + b + c, b)
    ensures b + c == "" ==> a + b + c == a
  {
    assert (a + b + c)[|a| + |b|..] == c;
  }

  /** A string that starts with `q` does not start with a `p` that differs from `q` at `i`. */
  lemma PrefixClash(p: string, q: string, s: string, i: nat)
    requires q <= s
    requires i < |p| && i < |q| && p[i] != q[i]
    ensures !(p <= s)
  {
  }

  /** `s.endswith(t)`. */
  predicate EndsWith(s: string, t: string)
  {
    |t| <= |s| && s[|s| - |t|..] == t
  }

  /** The characters Python's `str.isspace` accepts, which are the ones `strip()` removes. */
  predicate IsSpace(c: char)
  {
    || ('\t' <= c <= '\r')
    || ('\U{1c}' <= c <= ' ')
    || c == '\U{85}' || c == '\U{a0}' || c == '\U{1680}'
    || ('\U{2000}' <= c <= '\U{200a}')
    || c == '\U{2028}' || c == '\U{2029}' || c == '\U{202f}' || c == '\U{205f}' || c == '\U{3000}'
  }

  /** `s.lstrip()`: the suffix of `s` left after the leading whitespace. */
  function TrimStart(s: string): (r: string)
    ensures |r| <= |s| && r == s[|s| - |r|..]
    ensures forall k :: 0 <= k < |s| - |r| ==> IsSpace(s[k])
    ensures |r| == 0 || !IsSpace(r[0])
  {
    if |s| > 0 && IsSpace(s[0]) then TrimStart(s[1..]) else s
  }

  /** `s.rstrip()`: the prefix of `s` left before the trailing whitespace. */
  function TrimEnd(s: string): (r: string)
    ensures |r| <= |s| && r == s[..|r|]
    ensures forall k :: |r| <= k < |s| ==> IsSpace(s[k])
    ensures |r| == 0 || !IsSpace(r[|r| - 1])
  {
    if |s| > 0 && IsSpace(s[|s| - 1]) then TrimEnd(s[..|s| - 1]) else s
  }

  /** `s.strip()`: the contiguous middle of `s` left once the whitespace before and after it
      is cut off, with no whitespace at either end; `s` is its own strip exactly when it has
      no whitespace at either end. */
  function Strip(s: string): (r: string)
    ensures |r| == 0 || (!IsSpace(r[0]) && !IsSpace(r[|r| - 1]))
    ensures exists i, j ::
              && 0 <= i <= j <= |s| && r == s[i..j]
              && (forall k :: 0 <= k < i ==> IsSpace(s[k]))
              && (forall k :: j <= k < |s| ==> IsSpace(s[k]))
    ensures forall ch :: ch in r ==> ch in s
    ensures r == s <==> (|s| == 0 || (!IsSpace(s[0]) && !IsSpace(s[|s| - 1])))
  {
    var t := TrimStart(s);
    var r := TrimEnd(t);
    StripSlice(s, t, r);
    StripFromS(s, t, r);
    StripFixed(s, t, r);
    r
  }

  /** What is left after cutting whitespace from the front and then from the back. */
  lemma StripSlice(s: string, t: string, r: string)
    requires |t| <= |s| && t == s[|s| - |t|..]
    requires forall k :: 0 <= k < |s| - |t| ==> IsSpace(s[k])
    requires |r| <= |t| && r == t[..|r|]
    requires forall k :: |r| <= k < |t| ==> IsSpace(t[k])
    ensures var i, j := |s| - |t|, |s| - |t| + |r|;
      && 0 <= i <= j <= |s| && r == s[i..j]
      && (forall k :: 0 <= k < i ==> IsSpace(s[k]))
      && (forall k :: j <= k < |s| ==> IsSpace(s[k]))
  {
    var i := |s| - |t|;
    forall k | i + |r| <= k < |s|
      ensures IsSpace(s[k])
    {
      assert s[k] == t[k - i];
    }
  }

  lemma StripFromS(s: string, t: string, r: string)
    requires t == TrimStart(s) && r == TrimEnd(t)
    ensures forall ch :: ch in r ==> ch in s
  {
    var k := |s| - |t|;
    forall ch | ch in r
      ensures ch in s
    {
      var i :| 0 <= i < |r| && r[i] == ch;
      assert r[i] == t[i] == s[k + i];
    }
  }

  lemma StripFixed(s: string, t: string, r: string)
    requires t == TrimStart(s) && r == TrimEnd(t)
    ensures r == s <==> (|s| == 0 || (!IsSpace(s[0]) && !IsSpace(s[|s| - 1])))
  {
    if |s| == 0 {
      assert t == s && r == s;
    } else if !IsSpace(s[0]) && !IsSpace(s[|s| - 1]) {
      assert TrimStart(s) == s;
      assert TrimEnd(s) == s;
    }
  }

  /** Stripping twice is stripping once. */
  lemma StripIdempotent(s: string)
    ensures Strip(Strip(s)) == Strip(s)
  {
  }

  /** `c.lower()` restricted to ASCII letters; every other character is kept. */
  function LowerChar(c: char): char
  {
    if 'A' <= c <= 'Z' then (c as int + 32) as char else c
  }

  /** `s.lower()`, letter by letter on ASCII, leaving other characters as they are. */
  function Lower(s: string): (r: string)
    ensures |r| == |s|
    ensures forall i :: 0 <= i < |s| ==> r[i] == LowerChar(s[i])
    ensures forall i :: 0 <= i < |r| ==> !('A' <= r[i] <= 'Z')
  {
    if |s| == 0 then "" else [LowerChar(s[0])] + Lower(s[1..])
  }

  /** Python's `a <= b` on strings: lexicographic order by code point. */
  predicate NameLe(a: string, b: string)
  {
    |a| == 0 || (|b| > 0 && (a[0] < b[0] || (a[0] == b[0] && NameLe(a[1..], b[1..]))))
  }

  lemma NameLeReflexive(a: string)
    ensures NameLe(a, a)
  {
  }

  lemma NameLeTotal(a: string, b: string)
    ensures NameLe(a, b) || NameLe(b, a)
  {
  }

  lemma NameLeTransitive(a: string, b: string, c: string)
    requires NameLe(a, b) && NameLe(b, c)
    ensures NameLe(a, c)
  {
  }

  lemma {:induction false} NameLeAntisymmetric(a: string, b: string)
    requires NameLe(a, b) && NameLe(b, a)
    ensures a == b
  {
    if |a| > 0 {
      NameLeAntisymmetric(a[1..], b[1..]);
      assert a == [a[0]] + a[1..];
      assert b == [b[0]] + b[1..];
    }
  }

  /** The index of the last '.' in `s`, or -1 when there is none (`s.rfind('.')`). */
  function LastDot(s: string): (i: int)
    ensures -1 <= i < |s|
    ensures i == -1 ==> '.' !in s
    ensures i >= 0 ==> s[i] == '.' && '.' !in s[i + 1..]
  {
    if |s| == 0 then -1
    else if s[|s| - 1] == '.' then |s| - 1
    else
      var i := LastDot(s[..|s| - 1]);
      assert s[..|s| - 1] + [s[|s| - 1]] == s;
      i
  }

  /** `PurePath(name).stem` for a single file name: the name without its last suffix, where a
      leading dot or a trailing dot does not start a suffix. */
  function Stem(name: string): string
  {
    var i := LastDot(name);
    if 0 < i < |name| - 1 then name[..i] else name
  }

  /** The stem of a `*.txt` name is the name without ".txt", except for the name ".txt" itself,
      whose dot is leading and so is its own stem. */
  lemma TxtStem(name: string)
    requires EndsWith(name, ".txt")
    ensures |name| > 4 ==> Stem(name) + ".txt" == name
    ensures |name| == 4 ==> Stem(name) == ".txt"
  {
    var i := LastDot(name);
    assert name[|name| - 4] == '.';
    assert name[|name| - 3..] == "txt";
    assert i == |name| - 4;
    if |name| > 4 {
      assert name[..i] + ".txt" == name;
    }
  }
}

=== FILE: tools.dfy ===
/** The results of the tools `ScaffAgent` hands to the language model (scaffai/agent.py). Each
    tool maps its input, and what the filesystem or the shell gave back, to the text the model
    reads. The filesystem and the shell are parameters: a store of named files, a directory
    listing, the outcome of running a command. */
module Tools {

  import opened Wrappers
  import opened Strings
  import opened Tree

  /** What a tool call ends in: a returned text, or an exception that escapes the tool with the
      given message (the operations that do not catch their own errors). */
  datatype Reply = Returned(text: string) | Raised(error: string)

  /** A file in the rules or snippets store: its text, or the error that reading it raises
      (for instance a directory that happens to be named `x.txt`). */
  datatype Stored = Contents(text: string) | ReadError(error: string)

  /** What looking a directory up finds: nothing, something whose listing raises (a plain file,
      a directory without read permission) with the error's text, or its listing. */
  datatype Target = Missing | Unlistable(error: string) | Listed(children: seq<Entry>)

  // ---------------------------------------------------------------------------------------
  // read_rule, read_snippet
  // ---------------------------------------------------------------------------------------

  /** `_read_rule`: the text of `rules/<name>.txt`, keyed here by the rule name. */
  function ReadRule(ruleName: string, rules: map<string, Stored>): (r: Reply)
    ensures ruleName !in rules ==> r.Returned? && Contains(r.text, "not found")
    ensures ruleName in rules && rules[ruleName].Contents? ==> r == Returned(rules[ruleName].text)
    ensures r.Raised? <==> ruleName in rules && rules[ruleName].ReadError?
  {
    if ruleName !in rules then
      ContainsSuffix("Rule '" + ruleName + "'", " not found");
      ContainsSuffix("Rule '" + ruleName + "' ", "not found");
      assert "Rule '" + ruleName + "' not found" == ("Rule '" + ruleName + "' ") + "not found";
      Returned("Rule '" + ruleName + "' not found")
    else match rules[ruleName]
      case Contents(text) => Returned(text)
      case ReadError(err) => Raised(err)
  }

  /** `_read_snippet`: the text of `snippets/<path>.txt`, keyed here by the path
      "language/category/name". */
  function ReadSnippet(snippetPath: string, snippets: map<string, Stored>): (r: Reply)
    ensures snippetPath !in snippets ==> r.Returned? && Contains(r.text, "not found")
    ensures snippetPath in snippets && snippets[snippetPath].Contents? ==> r == Returned(snippets[snippetPath].text)
    ensures r.Raised? <==> snippetPath in snippets && snippets[snippetPath].ReadError?
  {
    if snippetPath !in snippets then
      ContainsSuffix("Snippet '" + snippetPath + "' ", "not found");
      assert "Snippet '" + snippetPath + "' not found" == ("Snippet '" + snippetPath + "' ") + "not found";
      Returned("Snippet '" + snippetPath + "' not found")
    else match snippets[snippetPath]
      case Contents(text) => Returned(text)
      case ReadError(err) => Raised(err)
  }

  // ---------------------------------------------------------------------------------------
  // list_rules, list_snippets
  // ---------------------------------------------------------------------------------------

  /** `[p.stem for p in d.glob("*.txt")]` over the names `d` lists, in listing order. The glob
      matches entries of any kind, dot-names included; every stem is a listed name minus ".txt",
      or ".txt" itself when a file of that name is listed, and every listed `*.txt` name
      contributes its stem. No stem is empty. */
  function TxtStems(names: seq<string>): (r: seq<string>)
    ensures |r| == TxtCount(names)
    ensures forall s :: s in r ==> s + ".txt" in names || (s == ".txt" && ".txt" in names)
    ensures forall n :: n in names && EndsWith(n, ".txt") ==> Stem(n) in r
    ensures forall s :: s in r ==> s != ""
  {
    if names == [] then []
    else
      var rest := TxtStems(names[1..]);
      assert forall n :: n in names[1..] ==> n in names;
      assert forall n :: n in names ==> n == names[0] || n in names[1..];
      if EndsWith(names[0], ".txt") then
        TxtHead(names[0]);
        [Stem(names[0])] + rest
      else rest
  }

  /** How many of the names end in ".txt", each counted as often as it is listed. */
  function TxtCount(names: seq<string>): (n: nat)
    ensures n <= |names|
  {
    if names == [] then 0 else (if EndsWith(names[0], ".txt") then 1 else 0) + TxtCount(names[1..])
  }

  /** The stem of a `*.txt` name is not empty, and adding ".txt" gives the name back unless
      the name is ".txt" itself. */
  lemma TxtHead(n: string)
    requires EndsWith(n, ".txt")
    ensures Stem(n) != ""
    ensures Stem(n) + ".txt" == n || (Stem(n) == ".txt" && n == ".txt")
  {
    TxtStem(n);
    if |n| == 4 {
      assert n == n[|n| - 4..];
    }
  }

  const RulesPrefix := "Available rules: "

  /** `_list_rules`: the stems of the `*.txt` entries of the rules directory, comma-joined. A
      missing rules directory globs to nothing. Every rule file is named after the prefix,
      and the prefix stands alone exactly when there is no rule file. */
  function ListRules(names: seq<string>): (r: string)
    ensures RulesPrefix <= r
    ensures forall n :: n in names && EndsWith(n, ".txt") ==> Contains(r[|RulesPrefix|..], Stem(n))
    ensures r == RulesPrefix <==> forall n :: n in names ==> !EndsWith(n, ".txt")
  {
    var stems := TxtStems(names);
    StemsListed(names, stems);
    NoStems(names, stems);
    RulesPrefix + Join(stems, ", ")
  }

  /** The joined stems are empty exactly when no listed name ends in ".txt". */
  lemma NoStems(names: seq<string>, stems: seq<string>)
    requires stems == TxtStems(names)
    ensures Join(stems, ", ") == "" <==> forall n :: n in names ==> !EndsWith(n, ".txt")
  {
    if stems != [] {
      assert stems[0] <= Join(stems, ", ");
      assert stems[0] in stems;
      TxtNamed(names, stems[0]);
    }
  }

  /** Each stem of a `*.txt` name occurs in the joined stems. */
  lemma StemsListed(names: seq<string>, stems: seq<string>)
    requires stems == TxtStems(names)
    ensures forall n :: n in names && EndsWith(n, ".txt") ==> Contains(Join(stems, ", "), Stem(n))
  {
    forall n | n in names && EndsWith(n, ".txt")
      ensures Contains(Join(stems, ", "), Stem(n))
    {
      var k :| 0 <= k < |stems| && stems[k] == Stem(n);
      JoinContains(stems, ", ", k);
    }
  }

  /** The rules reply reads back: provided no stem holds a comma, splitting the text after
      the prefix at ", " gives exactly the stems, in order and as often as they occur. */
  lemma ListRulesReadsBack(names: seq<string>)
    requires forall s :: s in TxtStems(names) ==> ',' !in s
    ensures CommaItems(ListRules(names)[|RulesPrefix|..]) == TxtStems(names)
  {
    var stems := TxtStems(names);
    var r := ListRules(names);
    assert r[|RulesPrefix|..] == Join(stems, ", ");
    if stems != [] {
      assert stems[0] <= Join(stems, ", ");
      assert forall i :: 0 <= i < |stems| ==> stems[i] in stems;
      CommaItemsJoin(stems);
    }
  }

  /** A stem comes from a listed `*.txt` name. */
  lemma TxtNamed(names: seq<string>, stem: string)
    requires stem + ".txt" in names || (stem == ".txt" && ".txt" in names)
    ensures exists n :: n in names && EndsWith(n, ".txt")
  {
    if stem + ".txt" in names {
      assert EndsWith(stem + ".txt", ".txt");
    } else {
      assert EndsWith(".txt", ".txt");
    }
  }

  /** `category.is_dir()`. */
  predicate IsCategory(e: Entry)
  {
    e.Dir? || e.Unreadable?
  }

  /** The snippet names of a category: the stems of its `*.txt` entries. Globbing a directory
      that cannot be listed yields nothing rather than raising. */
  function SnippetStems(category: Entry): seq<string>
  {
    if category.Dir? then TxtStems(Names(category.children)) else []
  }

  function Names(cs: seq<Entry>): (r: seq<string>)
    ensures |r| == |cs|
    ensures forall i :: 0 <= i < |cs| ==> r[i] == cs[i].name
  {
    if cs == [] then [] else [cs[0].name] + Names(cs[1..])
  }

  /** The line of one category. */
  function CategoryLine(c: Entry): string
  {
    c.name + ": " + Join(SnippetStems(c), ", ")
  }

  /** One line per category that holds at least one snippet, in listing order; categories with
      no snippet and entries that are not directories are left out. */
  function CategoryLines(entries: seq<Entry>): (r: seq<string>)
    ensures |r| == CategoryCount(entries)
    ensures forall l :: l in r ==> exists c :: c in entries && IsCategory(c) && SnippetStems(c) != [] && l == CategoryLine(c)
    ensures forall c :: c in entries && IsCategory(c) && SnippetStems(c) != [] ==> CategoryLine(c) in r
  {
    if entries == [] then []
    else
      var rest := CategoryLines(entries[1..]);
      var c := entries[0];
      assert forall x :: x in entries[1..] ==> x in entries;
      assert forall x :: x in entries ==> x == c || x in entries[1..];
      if IsCategory(c) && SnippetStems(c) != [] then [CategoryLine(c)] + rest else rest
  }

  /** How many entries are categories holding at least one snippet. */
  predicate HasSnippets(c: Entry)
  {
    IsCategory(c) && SnippetStems(c) != []
  }

  function CategoryCount(entries: seq<Entry>): (n: nat)
    ensures n <= |entries|
  {
    if entries == [] then 0 else (if HasSnippets(entries[0]) then 1 else 0) + CategoryCount(entries[1..])
  }

  function NoSnippets(language: string): string
  {
    "No snippets found for " + language
  }

  /** `_list_snippets`: the "no snippets" message when the language directory is missing or no
      category in it holds a snippet; otherwise the category lines joined by newlines. A language
      path whose listing fails raises out of the tool. */
  function ListSnippets(language: string, dir: Target): (r: Reply)
    ensures dir.Missing? ==> r == Returned(NoSnippets(language))
    ensures r.Raised? <==> dir.Unlistable?
    ensures dir.Listed? && (forall c :: c in dir.children && IsCategory(c) ==> SnippetStems(c) == []) ==>
      r == Returned(NoSnippets(language))
    ensures dir.Listed? && (exists c :: c in dir.children && IsCategory(c) && SnippetStems(c) != []) ==>
      r == Returned(Join(CategoryLines(dir.children), "\n")) && CategoryLines(dir.children) != []
  {
    match dir
    case Missing => Returned(NoSnippets(language))
    case Unlistable(err) => Raised(err)
    case Listed(cs) =>
      var lines := CategoryLines(cs);
      if lines == [] then Returned(NoSnippets(language))
      else
        assert lines[0] in lines;
        Returned(Join(lines, "\n"))
  }

  // ---------------------------------------------------------------------------------------
  // run_command
  // ---------------------------------------------------------------------------------------

  /** What running a command through the shell gave: its exit status and captured output, or
      the error raised when it could not be started. */
  datatype CommandRun = Completed(exitCode: int, stdout: string, stderr: string) | LaunchFailed(error: string)

  const SuccessBanner := "Command executed successfully:\n"
  const FailureBanner := "Command failed with error:\n"
  const LaunchBanner := "Failed to run command: "

  /** `_run_command`: standard output after the success banner on exit status 0, standard error
      after the failure banner on any other status, and the launch error otherwise. It always
      returns. */
  function RunCommand(run: CommandRun): (r: string)
    ensures SuccessBanner <= r <==> run.Completed? && run.exitCode == 0
    ensures FailureBanner <= r <==> run.Completed? && run.exitCode != 0
    ensures LaunchBanner <= r <==> run.LaunchFailed?
  {
    match run
    case Completed(code, out, err) =>
      if code == 0 then
        var r := SuccessBanner + out;
        PrefixClash(FailureBanner, SuccessBanner, r, 8);
        PrefixClash(LaunchBanner, SuccessBanner, r, 0);
        r
      else
        var r := FailureBanner + err;
        PrefixClash(SuccessBanner, FailureBanner, r, 8);
        PrefixClash(LaunchBanner, FailureBanner, r, 0);
        r
    case LaunchFailed(e) =>
      var r := LaunchBanner + e;
      PrefixClash(SuccessBanner, LaunchBanner, r, 0);
      PrefixClash(FailureBanner, LaunchBanner, r, 0);
      r
  }

  /** What the reply tells the model about the run. */
  datatype CommandReport = Succeeded(output: string) | Failed(errors: string) | NotRun(reason: string)

  /** Reads a `run_command` reply back. */
  function ReadReport(reply: string): Option<CommandReport>
  {
    if SuccessBanner <= reply then Some(Succeeded(reply[|SuccessBanner|..]))
    else if FailureBanner <= reply then Some(Failed(reply[|FailureBanner|..]))
    else if LaunchBanner <= reply then Some(NotRun(reply[|LaunchBanner|..]))
    else None
  }

  /** The reply loses nothing: the kind of outcome and the one stream the model is shown come
      back out of it. */
  lemma RunCommandReadsBack(run: CommandRun)
    ensures ReadReport(RunCommand(run)) == Some(match run
      case Completed(code, out, err) => if code == 0 then Succeeded(out) else Failed(err)
      case LaunchFailed(e) => NotRun(e))
  {
    var r := RunCommand(run);
    if run.Completed? && run.exitCode == 0 {
      assert r[|SuccessBanner|..] == run.stdout;
    } else if run.Completed? {
      assert r[|FailureBanner|..] == run.stderr;
    } else {
      assert r[|LaunchBanner|..] == run.error;
    }
  }

  // ---------------------------------------------------------------------------------------
  // create_project, apply_snippet
  // ---------------------------------------------------------------------------------------

  /** The tool argument after `json.loads`: an object with string fields, or the text of the
      error raised (malformed JSON, or JSON that is not an object). */
  datatype Json = Malformed(error: string) | Object(fields: map<string, string>)

  const CreateFailure := "Failed to create project: "
  const ApplyFailure := "Failed to apply snippet: "

  /** `_create_project`: reads "name" then "template" (a missing key raises `KeyError`, whose
      text is the quoted key), calls the project-creation command, whose failure text is
      `failure`, and reports. Every error ends in the failure prefix; it always returns. */
  function CreateProject(params: Json, failure: Option<string>): (r: string)
    ensures CreateFailure <= r <==>
      !(params.Object? && "name" in params.fields && "template" in params.fields && failure.None?)
    ensures params.Malformed? ==> r == CreateFailure + params.error
    ensures params.Object? && "name" !in params.fields ==> r == CreateFailure + "'name'"
    ensures params.Object? && "name" in params.fields && "template" !in params.fields ==>
      r == CreateFailure + "'template'"
    ensures !(CreateFailure <= r) ==> "Project '" + params.fields["name"] + "'" <= r
  {
    match params
    case Malformed(err) => CreateFailure + err
    case Object(f) =>
      if "name" !in f then CreateFailure + "'name'"
      else if "template" !in f then CreateFailure + "'template'"
      else if failure.Some? then CreateFailure + failure.value
      else
        var r := "Project '" + f["name"] + "' created successfully";
        PrefixClash(CreateFailure, "Project '", r, 0);
        r
  }

  /** `_apply_snippet`: reads "snippet", "template" and "project_dir" in that order, calls the
      snippet command, and reports like `CreateProject`. */
  function ApplySnippet(params: Json, failure: Option<string>): (r: string)
    ensures ApplyFailure <= r <==>
      !(params.Object? && "snippet" in params.fields && "template" in params.fields
        && "project_dir" in params.fields && failure.None?)
    ensures params.Malformed? ==> r == ApplyFailure + params.error
    ensures params.Object? && "snippet" !in params.fields ==> r == ApplyFailure + "'snippet'"
    ensures params.Object? && "snippet" in params.fields && "template" !in params.fields ==>
      r == ApplyFailure + "'template'"
    ensures (params.Object? && "snippet" in params.fields && "template" in params.fields
      && "project_dir" !in params.fields) ==> r == ApplyFailure + "'project_dir'"
    ensures !(ApplyFailure <= r) ==> "Snippet '" + params.fields["snippet"] + "'" <= r
  {
    match params
    case Malformed(err) => ApplyFailure + err
    case Object(f) =>
      if "snippet" !in f then ApplyFailure + "'snippet'"
      else if "template" !in f then ApplyFailure + "'template'"
      else if "project_dir" !in f then ApplyFailure + "'project_dir'"
      else if failure.Some? then ApplyFailure + failure.value
      else
        var r := "Snippet '" + f["snippet"] + "' applied successfully";
        PrefixClash(ApplyFailure, "Snippet '", r, 0);
        r
  }

  // ---------------------------------------------------------------------------------------
  // analyze_project
  // ---------------------------------------------------------------------------------------

  const StructureHeader := "Project Structure:\n"
  const AnalyzeFailure := "Failed to analyze project: "

  /** `_analyze_project`: "not found" for a missing directory, the failure prefix and the
      error when any listing the walk needs raises, and otherwise the header followed by the
      walk's lines joined by newlines. It always returns. */
  function AnalyzeProject(projectDir: string, target: Target): (r: string)
    ensures target.Missing? ==> r == "Directory '" + projectDir + "' not found"
    ensures StructureHeader <= r <==> target.Listed? && ReadableSeq(target.children)
    ensures AnalyzeFailure <= r <==> target.Unlistable? || (target.Listed? && !ReadableSeq(target.children))
    ensures StructureHeader <= r ==> r[|StructureHeader|..] == Join(ScanDir(target.children, ""), "\n")
  {
    match target
    case Missing =>
      var r := "Directory '" + projectDir + "' not found";
      PrefixClash(StructureHeader, "Directory '", r, 0);
      PrefixClash(AnalyzeFailure, "Directory '", r, 0);
      r
    case Unlistable(err) =>
      var r := AnalyzeFailure + err;
      PrefixClash(StructureHeader, AnalyzeFailure, r, 0);
      r
    case Listed(cs) =>
      match Denied(cs)
      case Some(err) =>
        var r := AnalyzeFailure + err;
        PrefixClash(StructureHeader, AnalyzeFailure, r, 0);
        r
      case None =>
        var r := StructureHeader + Join(ScanDir(cs, ""), "\n");
        PrefixClash(AnalyzeFailure, StructureHeader, r, 0);
        r
  }

  lemma AnalyzeMissingSaysNotFound(projectDir: string)
    ensures Contains(AnalyzeProject(projectDir, Missing), "not found")
  {
    ContainsSuffix("Directory '" + projectDir + "' ", "not found");
    assert "Directory '" + projectDir + "' not found" == ("Directory '" + projectDir + "' ") + "not found";
  }

  /** The reply of a successful analysis reads back, line by line, as the outline of the
      directory, provided no visible name holds a newline (a newline in a file name is
      indistinguishable from a line break in the reply). */
  lemma AnalyzeReadsBack(projectDir: string, cs: seq<Entry>)
    requires ReadableSeq(cs)
    requires VisibleCountSeq(cs) > 0
    requires forall i :: 0 <= i < |Outline(cs, 0)| ==> '\n' !in Outline(cs, 0)[i].name
    ensures var body := AnalyzeProject(projectDir, Listed(cs))[|StructureHeader|..];
      var lines := Split(body, '\n');
      && |lines| == |Outline(cs, 0)|
      && forall i :: 0 <= i < |lines| ==> Parse(lines[i]) == Some(Outline(cs, 0)[i])
  {
    var o := Outline(cs, 0);
    var scanned := ScanDir(cs, Indent(0));
    LinesDecode(cs, 0);
    ListingRenders(cs, 0);
    forall i | 0 <= i < |scanned|
      ensures '\n' !in scanned[i]
    {
      FormatNewline(o[i]);
    }
    SplitJoin(scanned, '\n');
  }

  /** The example tree `{a.txt, b/{c.txt}}`, listed after a hidden directory and a cache
      directory: two top-level lines in name order, one nested line one level deeper, and
      nothing from the excluded directories, whatever they hold. */
  lemma AnalyzeExample(git: seq<Entry>, cache: seq<Entry>)
    ensures AnalyzeProject("demo", Listed([Dir(".git", git), Dir("__pycache__", cache),
                                           Dir("b", [File("c.txt")]), File("a.txt")]))
      == StructureHeader + Join([[FileTag] + " a.txt", [DirTag] + " b/", "  " + [FileTag] + " c.txt"], "\n")
  {
    var silent := [Dir(".git", git), Dir("__pycache__", cache)];
    var visible := [Dir("b", [File("c.txt")]), File("a.txt")];
    assert Silent(silent[0]) && Silent(silent[1]);
    var cs := silent + visible;
    assert cs == [silent[0], silent[1], visible[0], visible[1]];
    SilentEntriesIgnored(silent, visible, "");
    ExampleVisible();
    AnalyzeWalked("demo", cs, [[FileTag] + " a.txt", [DirTag] + " b/", "  " + [FileTag] + " c.txt"]);
  }

  /** A listing whose walk succeeds is reported as the header and the walked lines. */
  lemma AnalyzeWalked(projectDir: string, cs: seq<Entry>, lines: seq<string>)
    requires ScanDir(cs, "") == lines && Denied(cs) == None
    ensures AnalyzeProject(projectDir, Listed(cs)) == StructureHeader + Join(lines, "\n")
  {
  }

  /** The two visible entries of the example, sorted and walked. */
  lemma ExampleVisible()
    ensures ScanDir([Dir("b", [File("c.txt")]), File("a.txt")], "")
      == [[FileTag] + " a.txt", [DirTag] + " b/", "  " + [FileTag] + " c.txt"]
    ensures Denied([Dir("b", [File("c.txt")]), File("a.txt")]) == None
  {
    var b, a := Dir("b", [File("c.txt")]), File("a.txt");
    ExampleVisibleSorted();
    ExampleEntries();
    assert ScanSeq([a, b], "") == ScanEntry(a, "") + ScanEntry(b, "") by {
      assert [a, b][1..] == [b];
      assert [b][1..] == [];
      assert ScanSeq([b], "") == ScanEntry(b, "") + [];
      assert ScanEntry(b, "") + [] == ScanEntry(b, "");
    }
    assert DeniedSeq([a, b]) == None by {
      assert [a, b][1..] == [b];
      assert [b][1..] == [];
      assert DeniedSeq([b]) == DeniedSeq([]);
    }
  }

  lemma ExampleVisibleSorted()
    ensures Sort([Dir("b", [File("c.txt")]), File("a.txt")]) == [File("a.txt"), Dir("b", [File("c.txt")])]
  {
    var b, a := Dir("b", [File("c.txt")]), File("a.txt");
    assert [b, a][1..] == [a];
    assert Sort([a]) == [a] by {
      assert [a][1..] == [];
    }
    assert !NameLe(b.name, a.name);
    assert Insert(b, [a]) == [a] + Insert(b, []) by {
      assert [a][1..] == [];
    }
  }

  lemma ExampleEntries()
    ensures ScanEntry(File("a.txt"), "") == [[FileTag] + " a.txt"]
    ensures ScanEntry(Dir("b", [File("c.txt")]), "") == [[DirTag] + " b/", "  " + [FileTag] + " c.txt"]
    ensures DeniedEntry(File("a.txt")) == None && DeniedEntry(Dir("b", [File("c.txt")])) == None
  {
    ExampleSubtree();
    assert !Hidden("a.txt") && !Hidden("b");
    assert "" + [FileTag] + " " + "a.txt" == [FileTag] + " a.txt";
    assert "" + [DirTag] + " " + "b" + "/" == [DirTag] + " b/";
    assert "" + "  " == "  ";
  }

  /** The sub-directory `b` of the example. */
  lemma ExampleSubtree()
    ensures ScanDir([File("c.txt")], "  ") == ["  " + [FileTag] + " c.txt"]
    ensures Denied([File("c.txt")]) == None
  {
    var sub := [File("c.txt")];
    assert Sort(sub) == sub by {
      assert sub[1..] == [];
    }
    assert !Hidden("c.txt");
    assert "  " + [FileTag] + " " + "c.txt" == "  " + [FileTag] + " c.txt";
    assert ScanSeq(sub[1..], "  ") == [];
  }
}

=== FILE: tree.dfy ===
/** The directory-tree renderer behind the `analyze_project` tool: the nested `scan_dir` of
    `ScaffAgent._analyze_project` (scaffai/agent.py). The filesystem is an immutable tree; a
    directory's children are given in the order `Path.iterdir` happens to produce them. */
module Tree {

  import opened Wrappers
  import opened Strings

  /** One entry of a directory listing. `Unreadable` is a directory (`is_dir()` holds) whose own
      listing raises, carrying the text of the error; `Other` is anything that is neither a file
      nor a directory: a socket, a FIFO, a device, or a symbolic link that does not resolve to a
      file or a directory. */
  datatype Entry =
    | File(name: string)
    | Dir(name: string, children: seq<Entry>)
    | Unreadable(name: string, error: string)
    | Other(name: string)

  /** Names the walk skips, together with everything beneath them. */
  predicate Hidden(name: string)
  {
    (|name| > 0 && name[0] == '.') || name == "__pycache__"
  }

  /** The number of entries in a subtree, hidden ones included; the walk's termination measure. */
  function Size(e: Entry): nat
    decreases e
  {
    match e
    case Dir(_, cs) => 1 + SizeSeq(cs)
    case _ => 1
  }

  function SizeSeq(cs: seq<Entry>): nat
    decreases cs
  {
    if cs == [] then 0 else Size(cs[0]) + SizeSeq(cs[1..])
  }

  /** The number of lines an entry should produce, counted without sorting anything: one per
      visible file or directory, plus those of a visible directory's contents. */
  function VisibleCount(e: Entry): nat
    decreases e
  {
    if Hidden(e.name) then 0
    else match e
      case File(_) => 1
      case Dir(_, cs) => 1 + VisibleCountSeq(cs)
      case Unreadable(_, _) => 1
      case Other(_) => 0
  }

  function VisibleCountSeq(cs: seq<Entry>): nat
    decreases cs
  {
    if cs == [] then 0 else VisibleCount(cs[0]) + VisibleCountSeq(cs[1..])
  }

  /** No visible directory anywhere below is unreadable; stated without any ordering. */
  predicate Readable(e: Entry)
    decreases e
  {
    Hidden(e.name) || (match e
      case Dir(_, cs) => forall i :: 0 <= i < |cs| ==> Readable(cs[i])
      case Unreadable(_, _) => false
      case _ => true)
  }

  predicate ReadableSeq(cs: seq<Entry>)
  {
    forall i :: 0 <= i < |cs| ==> Readable(cs[i])
  }

  // ---------------------------------------------------------------------------------------
  // Sorting siblings: `sorted(path.iterdir())`. Paths in one directory share their parent, so
  // they compare by name, in Python's code-point order; `sorted` is stable.
  // ---------------------------------------------------------------------------------------

  predicate SortedByName(xs: seq<Entry>)
  {
    forall i, j :: 0 <= i < j < |xs| ==> NameLe(xs[i].name, xs[j].name)
  }

  /** Two different entries of one listing never share a name (true of any real directory). */
  predicate UniqueNames(xs: seq<Entry>)
  {
    forall x, y :: x in xs && y in xs && x.name == y.name ==> x == y
  }

  /** Places `e` before the first entry whose name is not smaller than its own. */
  function Insert(e: Entry, xs: seq<Entry>): (r: seq<Entry>)
    ensures multiset(r) == multiset(xs) + multiset{e}
    ensures SizeSeq(r) == Size(e) + SizeSeq(xs)
    ensures VisibleCountSeq(r) == VisibleCount(e) + VisibleCountSeq(xs)
  {
    if |xs| == 0 || NameLe(e.name, xs[0].name) then
      [e] + xs
    else
      var rest := Insert(e, xs[1..]);
      assert ([xs[0]] + rest)[1..] == rest;
      assert [xs[0]] + xs[1..] == xs;
      [xs[0]] + rest
  }

  /** An entry no greater than everything in a sorted sequence can go in front of it. */
  lemma ConsSorted(x: Entry, s: seq<Entry>)
    requires SortedByName(s)
    requires forall y :: y in s ==> NameLe(x.name, y.name)
    ensures SortedByName([x] + s)
  {
    var r := [x] + s;
    forall i, j | 0 <= i < j < |r|
      ensures NameLe(r[i].name, r[j].name)
    {
      if i == 0 {
        assert r[j] in s;
      } else {
        assert r[i] == s[i - 1] && r[j] == s[j - 1];
      }
    }
  }

  /** Inserting keeps every lower bound the inserted entry and the sequence share. */
  lemma InsertLowerBound(b: Entry, e: Entry, xs: seq<Entry>)
    requires NameLe(b.name, e.name)
    requires forall y :: y in xs ==> NameLe(b.name, y.name)
    ensures forall y :: y in Insert(e, xs) ==> NameLe(b.name, y.name)
  {
    forall y | y in Insert(e, xs)
      ensures NameLe(b.name, y.name)
    {
      assert y in multiset(Insert(e, xs));
      if y != e {
        assert y in multiset(xs);
      }
    }
  }

  lemma {:induction false} InsertSorted(e: Entry, xs: seq<Entry>)
    requires SortedByName(xs)
    ensures SortedByName(Insert(e, xs))
  {
    if |xs| == 0 || NameLe(e.name, xs[0].name) {
      forall y | y in xs
        ensures NameLe(e.name, y.name)
      {
        var j :| 0 <= j < |xs| && xs[j] == y;
        if j > 0 {
          NameLeTransitive(e.name, xs[0].name, xs[j].name);
        }
      }
      ConsSorted(e, xs);
    } else {
      InsertSorted(e, xs[1..]);
      NameLeTotal(e.name, xs[0].name);
      forall y | y in xs[1..]
        ensures NameLe(xs[0].name, y.name)
      {
        var j :| 0 <= j < |xs[1..]| && xs[1..][j] == y;
        assert y == xs[j + 1];
      }
      InsertLowerBound(xs[0], e, xs[1..]);
      ConsSorted(xs[0], Insert(e, xs[1..]));
    }
  }

  /** `sorted(listing)`: the same entries, in order of name. */
  function Sort(xs: seq<Entry>): (r: seq<Entry>)
    ensures SortedByName(r)
    ensures multiset(r) == multiset(xs)
    ensures SizeSeq(r) == SizeSeq(xs)
    ensures VisibleCountSeq(r) == VisibleCountSeq(xs)
  {
    if |xs| == 0 then []
    else
      var rest := Sort(xs[1..]);
      InsertSorted(xs[0], rest);
      assert [xs[0]] + xs[1..] == xs;
      Insert(xs[0], rest)
  }

  /** Two sorted arrangements of the same uniquely named entries start with the same one. */
  lemma SortedHeads(a: seq<Entry>, b: seq<Entry>)
    requires SortedByName(a) && SortedByName(b)
    requires multiset(a) == multiset(b)
    requires UniqueNames(a)
    requires |a| > 0
    ensures |b| > 0 && a[0] == b[0]
  {
    assert a[0] in multiset(b);
    assert b[0] in multiset(a);
    var k :| 0 <= k < |b| && b[k] == a[0];
    var m :| 0 <= m < |a| && a[m] == b[0];
    if k == 0 { NameLeReflexive(b[0].name); }
    if m == 0 { NameLeReflexive(a[0].name); }
    NameLeAntisymmetric(a[0].name, b[0].name);
  }

  lemma TailFacts(a: seq<Entry>, b: seq<Entry>)
    requires SortedByName(a) && UniqueNames(a)
    requires multiset(a) == multiset(b)
    requires |a| > 0 && |b| > 0 && a[0] == b[0]
    ensures SortedByName(a[1..]) && UniqueNames(a[1..])
    ensures multiset(a[1..]) == multiset(b[1..])
  {
    TailUnique(a);
    TailMultiset(a, b);
  }

  lemma TailUnique(a: seq<Entry>)
    requires UniqueNames(a) && |a| > 0
    ensures UniqueNames(a[1..])
  {
    forall x, y | x in a[1..] && y in a[1..] && x.name == y.name
      ensures x == y
    {
      assert x in a && y in a;
    }
  }

  lemma TailMultiset<T>(a: seq<T>, b: seq<T>)
    requires multiset(a) == multiset(b)
    requires |a| > 0 && |b| > 0 && a[0] == b[0]
    ensures multiset(a[1..]) == multiset(b[1..])
  {
    assert a == [a[0]] + a[1..] && b == [b[0]] + b[1..];
    assert multiset(a) == multiset{a[0]} + multiset(a[1..]);
    assert multiset(b) == multiset{b[0]} + multiset(b[1..]);
    assert multiset(a[1..]) == multiset(a) - multiset{a[0]};
    assert multiset(b[1..]) == multiset(b) - multiset{b[0]};
  }

  /** Sorting by name leaves no choice once names are unique. */
  lemma {:induction false} SortedUnique(a: seq<Entry>, b: seq<Entry>)
    requires SortedByName(a) && SortedByName(b)
    requires multiset(a) == multiset(b)
    requires UniqueNames(a)
    ensures a == b
  {
    assert |a| == |multiset(a)| == |multiset(b)| == |b|;
    if |a| > 0 {
      SortedHeads(a, b);
      TailFacts(a, b);
      assert SortedByName(b[1..]);
      SortedUnique(a[1..], b[1..]);
      assert a == [a[0]] + a[1..] && b == [b[0]] + b[1..];
    }
  }

  lemma SortOrderIrrelevant(cs: seq<Entry>, ds: seq<Entry>)
    requires multiset(cs) == multiset(ds)
    requires UniqueNames(cs)
    ensures Sort(cs) == Sort(ds)
  {
    var a := Sort(cs);
    forall x, y | x in a && y in a && x.name == y.name
      ensures x == y
    {
      assert x in multiset(cs) && y in multiset(cs);
    }
    SortedUnique(a, Sort(ds));
  }

  // ---------------------------------------------------------------------------------------
  // The walk itself.
  // ---------------------------------------------------------------------------------------

  /** The tags written in front of a file's and a directory's name. */
  const FileTag: char := '\U{1F4C4}'
  const DirTag: char := '\U{1F4C1}'

  /** The lines `scan_dir` appends for one entry of a listing: nothing for a hidden entry or for
      one that is neither a file nor a directory; a tagged line for a file; for a directory a
      tagged line ending in "/" followed by its own listing with two more spaces of prefix. For
      an unreadable directory the tagged line is appended before its listing raises (`Denied`
      reports the error, which discards every line). */
  function ScanEntry(e: Entry, prefix: string): (r: seq<string>)
    decreases Size(e), 0
    ensures |r| == VisibleCount(e)
    ensures forall i :: 0 <= i < |r| ==> prefix <= r[i]
  {
    if Hidden(e.name) then []
    else match e
      case File(n) => [prefix + [FileTag] + " " + n]
      case Dir(n, cs) => [prefix + [DirTag] + " " + n + "/"] + ScanDir(cs, prefix + "  ")
      case Unreadable(n, _) => [prefix + [DirTag] + " " + n + "/"]
      case Other(_) => []
  }

  /** `scan_dir(path, prefix)` for a directory whose listing is `listing`: one line per visible
      file or directory anywhere below (an unreadable one included), none for an entry of any
      other kind, and every line starts with `prefix`. */
  function ScanDir(listing: seq<Entry>, prefix: string): (r: seq<string>)
    decreases SizeSeq(listing), 2
    ensures |r| == VisibleCountSeq(listing)
    ensures forall i :: 0 <= i < |r| ==> prefix <= r[i]
  {
    ScanSeq(Sort(listing), prefix)
  }

  function ScanSeq(xs: seq<Entry>, prefix: string): (r: seq<string>)
    decreases SizeSeq(xs), 1
    ensures |r| == VisibleCountSeq(xs)
    ensures forall i :: 0 <= i < |r| ==> prefix <= r[i]
  {
    if xs == [] then []
    else
      var a := ScanEntry(xs[0], prefix);
      var b := ScanSeq(xs[1..], prefix);
      assert forall i :: |a| <= i < |a| + |b| ==> (a + b)[i] == b[i - |a|];
      a + b
  }

  /** The error of the first unreadable visible directory the walk reaches, if any: that
      listing raises and the exception ends the whole walk. */
  function DeniedEntry(e: Entry): (r: Option<string>)
    decreases Size(e), 0
    ensures r.None? <==> Readable(e)
  {
    if Hidden(e.name) then None
    else match e
      case Dir(_, cs) => Denied(cs)
      case Unreadable(_, err) => Some(err)
      case _ => None
  }

  /** The walk of a listing fails exactly when some visible directory somewhere below cannot
      be listed, whichever order the listing comes in. */
  function Denied(listing: seq<Entry>): (r: Option<string>)
    decreases SizeSeq(listing), 2
    ensures r.None? <==> ReadableSeq(listing)
  {
    var xs := Sort(listing);
    ReadablePermuted(xs, listing);
    DeniedSeq(xs)
  }

  function DeniedSeq(xs: seq<Entry>): (r: Option<string>)
    decreases SizeSeq(xs), 1
    ensures r.None? <==> ReadableSeq(xs)
  {
    if xs == [] then None
    else
      ReadableCons(xs);
      match DeniedEntry(xs[0])
      case Some(err) => Some(err)
      case None => DeniedSeq(xs[1..])
  }

  lemma ReadableCons(xs: seq<Entry>)
    requires xs != []
    ensures ReadableSeq(xs) <==> Readable(xs[0]) && ReadableSeq(xs[1..])
  {
    if Readable(xs[0]) && ReadableSeq(xs[1..]) {
      forall i | 0 <= i < |xs|
        ensures Readable(xs[i])
      {
        if i > 0 {
          assert xs[i] == xs[1..][i - 1];
        }
      }
    }
  }

  /** Whether every entry is readable depends only on which entries there are. */
  lemma ReadablePermuted(xs: seq<Entry>, ys: seq<Entry>)
    requires multiset(xs) == multiset(ys)
    ensures ReadableSeq(xs) <==> ReadableSeq(ys)
  {
    forall x
      ensures x in xs <==> x in ys
    {
      assert x in xs <==> x in multiset(xs);
      assert x in ys <==> x in multiset(ys);
    }
    if ReadableSeq(xs) {
      forall i | 0 <= i < |ys|
        ensures Readable(ys[i])
      {
        assert ys[i] in xs;
      }
    }
    if ReadableSeq(ys) {
      forall i | 0 <= i < |xs|
        ensures Readable(xs[i])
      {
        assert xs[i] in ys;
      }
    }
  }

  // ---------------------------------------------------------------------------------------
  // What the lines say: an outline of (depth, kind, name) records, and the line format.
  // ---------------------------------------------------------------------------------------

  datatype Kind = FileLine | DirLine

  /** One rendered line, as data: how deep it is, whether it names a file or a directory,
      and the name. */
  datatype Line = Line(depth: nat, kind: Kind, name: string)

  /** Two spaces per level. */
  function Indent(depth: nat): (r: string)
    ensures |r| == 2 * depth
    ensures forall i :: 0 <= i < |r| ==> r[i] == ' '
  {
    if depth == 0 then "" else Indent(depth - 1) + "  "
  }

  function Tag(k: Kind): char
  {
    if k == FileLine then FileTag else DirTag
  }

  /** The text of a line: indentation, tag, a space, the name, and "/" after a directory. */
  function Format(l: Line): string
  {
    Indent(l.depth) + [Tag(l.kind)] + " " + l.name + (if l.kind == DirLine then "/" else "")
  }

  /** The number of spaces a string starts with. */
  function LeadingSpaces(s: string): (n: nat)
    ensures n <= |s|
    ensures forall i :: 0 <= i < n ==> s[i] == ' '
    ensures n == |s| || s[n] != ' '
  {
    if |s| > 0 && s[0] == ' ' then 1 + LeadingSpaces(s[1..]) else 0
  }

  /** Reads a rendered line back; the inverse of `Format`. */
  function Parse(s: string): Option<Line>
  {
    var n := LeadingSpaces(s);
    if n % 2 == 0 && n + 2 <= |s| && s[n + 1] == ' ' then
      if s[n] == FileTag then Some(Line(n / 2, FileLine, s[n + 2..]))
      else if s[n] == DirTag && n + 3 <= |s| && s[|s| - 1] == '/' then
        Some(Line(n / 2, DirLine, s[n + 2..|s| - 1]))
      else None
    else None
  }

  lemma ParseFormat(l: Line)
    ensures Parse(Format(l)) == Some(l)
  {
    var s := Format(l);
    var ind := Indent(l.depth);
    assert s[|ind|] == Tag(l.kind);
    assert LeadingSpaces(s) == |ind| by {
      LeadingSpacesOf(ind, s);
    }
    if l.kind == FileLine {
      assert s[|ind| + 2..] == l.name;
    } else {
      assert s[|ind| + 2..|s| - 1] == l.name;
    }
  }

  lemma {:induction false} LeadingSpacesOf(ind: string, s: string)
    requires forall i :: 0 <= i < |ind| ==> ind[i] == ' '
    requires ind <= s && |s| > |ind| && s[|ind|] != ' '
    ensures LeadingSpaces(s) == |ind|
  {
    if |ind| > 0 {
      LeadingSpacesOf(ind[1..], s[1..]);
    }
  }

  /** A line shows a newline only if its name holds one. */
  lemma FormatNewline(l: Line)
    ensures '\n' in Format(l) ==> '\n' in l.name
  {
    var ind := Indent(l.depth);
    var suffix := if l.kind == DirLine then "/" else "";
    assert Format(l) == ind + [Tag(l.kind)] + " " + l.name + suffix;
    if '\n' in Format(l) {
      var i :| 0 <= i < |Format(l)| && Format(l)[i] == '\n';
      if i >= |ind| + 2 && i < |ind| + 2 + |l.name| {
        assert Format(l)[i] == l.name[i - |ind| - 2];
      }
    }
  }

  /** Line `q` may follow line `p` in a pre-order listing: it goes down at most one level, and
      only below a directory. */
  predicate Step(p: Line, q: Line)
  {
    q.depth <= p.depth + 1 && (q.depth == p.depth + 1 ==> p.kind == DirLine)
  }

  /** The shape of a pre-order listing that starts at `depth`: it starts at that depth, never
      goes above it, and every line may follow the one before it. */
  predicate WellNested(o: seq<Line>, depth: nat)
  {
    && (|o| > 0 ==> o[0].depth == depth)
    && (forall i :: 0 <= i < |o| ==> o[i].depth >= depth)
    && (forall i :: 1 <= i < |o| ==> Step(o[i - 1], o[i]))
  }

  lemma WellNestedAppend(a: seq<Line>, b: seq<Line>, depth: nat)
    requires WellNested(a, depth) && WellNested(b, depth)
    ensures WellNested(a + b, depth)
  {
    var o := a + b;
    forall i | 0 <= i < |o|
      ensures o[i].depth >= depth
    {
      if i >= |a| {
        assert o[i] == b[i - |a|];
      }
    }
    forall i | 1 <= i < |o|
      ensures Step(o[i - 1], o[i])
    {
      if i > |a| {
        assert o[i] == b[i - |a|] && o[i - 1] == b[i - 1 - |a|];
      } else if i == |a| {
        assert o[i] == b[0] && o[i - 1] == a[|a| - 1];
      }
    }
  }

  lemma WellNestedUnder(l: Line, c: seq<Line>)
    requires l.kind == DirLine
    requires WellNested(c, l.depth + 1)
    ensures WellNested([l] + c, l.depth)
  {
    var o := [l] + c;
    forall i | 1 <= i < |o|
      ensures Step(o[i - 1], o[i])
    {
      if i > 1 {
        assert o[i] == c[i - 1] && o[i - 1] == c[i - 2];
      }
    }
  }

  /** The lines an entry stands for, as data, in the walk's order. The contract is the walk's
      shape: well nested, no hidden name, one line per visible file or directory. */
  function EntryOutline(e: Entry, depth: nat): (r: seq<Line>)
    decreases Size(e), 0
    ensures WellNested(r, depth)
    ensures forall i :: 0 <= i < |r| ==> !Hidden(r[i].name)
    ensures |r| == VisibleCount(e)
  {
    if Hidden(e.name) then []
    else match e
      case File(n) => [Line(depth, FileLine, n)]
      case Dir(n, cs) =>
        var c := Outline(cs, depth + 1);
        WellNestedUnder(Line(depth, DirLine, n), c);
        [Line(depth, DirLine, n)] + c
      case Unreadable(n, _) => [Line(depth, DirLine, n)]
      case Other(_) => []
  }

  /** The outline of a whole listing at `depth`. */
  function Outline(listing: seq<Entry>, depth: nat): (r: seq<Line>)
    decreases SizeSeq(listing), 2
    ensures WellNested(r, depth)
    ensures forall i :: 0 <= i < |r| ==> !Hidden(r[i].name)
    ensures |r| == VisibleCountSeq(listing)
  {
    OutlineSeq(Sort(listing), depth)
  }

  function OutlineSeq(xs: seq<Entry>, depth: nat): (r: seq<Line>)
    decreases SizeSeq(xs), 1
    ensures WellNested(r, depth)
    ensures forall i :: 0 <= i < |r| ==> !Hidden(r[i].name)
    ensures |r| == VisibleCountSeq(xs)
  {
    if xs == [] then []
    else
      var a := EntryOutline(xs[0], depth);
      var b := OutlineSeq(xs[1..], depth);
      WellNestedAppend(a, b, depth);
      a + b
  }

  /** `lines` is the text of the outline `o`, line by line. */
  predicate Renders(lines: seq<string>, o: seq<Line>)
  {
    |lines| == |o| && forall i :: 0 <= i < |o| ==> lines[i] == Format(o[i])
  }

  lemma RendersAppend(a: seq<string>, o: seq<Line>, b: seq<string>, p: seq<Line>)
    requires Renders(a, o) && Renders(b, p)
    ensures Renders(a + b, o + p)
  {
    assert forall i :: |o| <= i < |o + p| ==> (o + p)[i] == p[i - |o|] && (a + b)[i] == b[i - |a|];
  }

  lemma {:induction false} EntryRenders(e: Entry, depth: nat)
    decreases Size(e), 0
    ensures Renders(ScanEntry(e, Indent(depth)), EntryOutline(e, depth))
  {
    if !Hidden(e.name) {
      match e
      case File(n) => FileRenders(n, depth);
      case Dir(n, cs) =>
        ListingRenders(cs, depth + 1);
        DirRenders(n, cs, depth);
      case Unreadable(n, err) => UnreadableRenders(n, err, depth);
      case Other(_) =>
    }
  }

  lemma FileRenders(n: string, depth: nat)
    requires !Hidden(n)
    ensures Renders(ScanEntry(File(n), Indent(depth)), EntryOutline(File(n), depth))
  {
    var x := Indent(depth) + [FileTag] + " " + n;
    assert x + "" == x;
  }

  lemma UnreadableRenders(n: string, err: string, depth: nat)
    requires !Hidden(n)
    ensures Renders(ScanEntry(Unreadable(n, err), Indent(depth)), EntryOutline(Unreadable(n, err), depth))
  {
  }

  lemma DirRenders(n: string, cs: seq<Entry>, depth: nat)
    requires !Hidden(n)
    requires Renders(ScanDir(cs, Indent(depth + 1)), Outline(cs, depth + 1))
    ensures Renders(ScanEntry(Dir(n, cs), Indent(depth)), EntryOutline(Dir(n, cs), depth))
  {
    assert Indent(depth + 1) == Indent(depth) + "  ";
    var x := Indent(depth) + [DirTag] + " " + n + "/";
    var l := Line(depth, DirLine, n);
    assert Renders([x], [l]);
    RendersAppend([x], [l], ScanDir(cs, Indent(depth + 1)), Outline(cs, depth + 1));
  }

  /** What the walk writes at `depth` is exactly the outline, formatted line by line. */
  lemma {:induction false} ListingRenders(listing: seq<Entry>, depth: nat)
    decreases SizeSeq(listing), 2
    ensures Renders(ScanDir(listing, Indent(depth)), Outline(listing, depth))
  {
    SeqRenders(Sort(listing), depth);
  }

  lemma {:induction false} SeqRenders(xs: seq<Entry>, depth: nat)
    decreases SizeSeq(xs), 1
    ensures Renders(ScanSeq(xs, Indent(depth)), OutlineSeq(xs, depth))
  {
    if xs != [] {
      EntryRenders(xs[0], depth);
      SeqRenders(xs[1..], depth);
      RendersAppend(ScanEntry(xs[0], Indent(depth)), EntryOutline(xs[0], depth),
                    ScanSeq(xs[1..], Indent(depth)), OutlineSeq(xs[1..], depth));
    }
  }

  /** Every line of the walk reads back as its outline entry. */
  lemma LinesDecode(listing: seq<Entry>, depth: nat)
    ensures var lines := ScanDir(listing, Indent(depth));
      && |lines| == |Outline(listing, depth)|
      && forall i :: 0 <= i < |lines| ==> Parse(lines[i]) == Some(Outline(listing, depth)[i])
  {
    ListingRenders(listing, depth);
    var o := Outline(listing, depth);
    forall i | 0 <= i < |o|
      ensures Parse(Format(o[i])) == Some(o[i])
    {
      ParseFormat(o[i]);
    }
  }

  /** The lines at the outline's own depth, the siblings, are in order of name. */
  predicate TopSorted(o: seq<Line>, depth: nat)
  {
    forall i, j :: 0 <= i < j < |o| && o[i].depth == depth && o[j].depth == depth ==>
      NameLe(o[i].name, o[j].name)
  }

  /** An entry's only line at its own depth is its own. */
  lemma EntryTop(e: Entry, depth: nat)
    ensures forall i :: 0 <= i < |EntryOutline(e, depth)| && EntryOutline(e, depth)[i].depth == depth ==>
      EntryOutline(e, depth)[i].name == e.name
  {
    if !Hidden(e.name) && e.Dir? {
      var c := Outline(e.children, depth + 1);
      var o := EntryOutline(e, depth);
      assert o == [Line(depth, DirLine, e.name)] + c;
      forall i | 1 <= i < |o|
        ensures o[i].depth > depth
      {
        assert o[i] == c[i - 1];
      }
    }
  }

  /** A name no greater than any entry's is no greater than any sibling line's. */
  lemma {:induction false} SeqTopBound(xs: seq<Entry>, depth: nat, lo: string)
    requires forall k :: 0 <= k < |xs| ==> NameLe(lo, xs[k].name)
    ensures forall j :: 0 <= j < |OutlineSeq(xs, depth)| && OutlineSeq(xs, depth)[j].depth == depth ==>
      NameLe(lo, OutlineSeq(xs, depth)[j].name)
    decreases |xs|
  {
    if xs != [] {
      var a := EntryOutline(xs[0], depth);
      var b := OutlineSeq(xs[1..], depth);
      EntryTop(xs[0], depth);
      assert forall k :: 0 <= k < |xs[1..]| ==> xs[1..][k] == xs[k + 1];
      SeqTopBound(xs[1..], depth, lo);
      var o := a + b;
      assert OutlineSeq(xs, depth) == o;
      forall j | 0 <= j < |o| && o[j].depth == depth
        ensures NameLe(lo, o[j].name)
      {
        if j >= |a| {
          assert o[j] == b[j - |a|];
        }
      }
    }
  }

  lemma {:induction false} SeqTopSorted(xs: seq<Entry>, depth: nat)
    requires SortedByName(xs)
    ensures TopSorted(OutlineSeq(xs, depth), depth)
    decreases |xs|
  {
    if xs != [] {
      var a := EntryOutline(xs[0], depth);
      var b := OutlineSeq(xs[1..], depth);
      EntryTop(xs[0], depth);
      assert forall k :: 0 <= k < |xs[1..]| ==> xs[1..][k] == xs[k + 1];
      SeqTopSorted(xs[1..], depth);
      SeqTopBound(xs[1..], depth, xs[0].name);
      NameLeReflexive(xs[0].name);
      var o := a + b;
      assert OutlineSeq(xs, depth) == o;
      forall i, j | 0 <= i < j < |o| && o[i].depth == depth && o[j].depth == depth
        ensures NameLe(o[i].name, o[j].name)
      {
        if i >= |a| {
          assert o[i] == b[i - |a|] && o[j] == b[j - |a|];
        } else if j >= |a| {
          assert o[j] == b[j - |a|];
        }
      }
    }
  }

  /** Siblings come out in order of name, whatever order the directory lists them in. */
  lemma SiblingsSorted(listing: seq<Entry>, depth: nat)
    ensures TopSorted(Outline(listing, depth), depth)
  {
    SeqTopSorted(Sort(listing), depth);
  }

  // ---------------------------------------------------------------------------------------
  // Exclusion and order.
  // ---------------------------------------------------------------------------------------

  /** An entry that writes nothing. */
  predicate Silent(e: Entry)
  {
    Hidden(e.name) || e.Other?
  }

  lemma {:induction false} InsertSilent(e: Entry, xs: seq<Entry>, prefix: string)
    requires Silent(e)
    ensures ScanSeq(Insert(e, xs), prefix) == ScanSeq(xs, prefix)
    ensures DeniedSeq(Insert(e, xs)) == DeniedSeq(xs)
  {
    if |xs| == 0 || NameLe(e.name, xs[0].name) {
      assert ([e] + xs)[1..] == xs;
    } else {
      InsertSilent(e, xs[1..], prefix);
      var rest := Insert(e, xs[1..]);
      assert ([xs[0]] + rest)[1..] == rest;
    }
  }

  /** A hidden entry, whatever lies beneath it, and an entry that is neither a file nor a
      directory change nothing: no line, and an unreadable directory under a hidden one does
      not make the walk fail. */
  lemma SilentEntryIgnored(e: Entry, listing: seq<Entry>, prefix: string)
    requires Silent(e)
    ensures ScanDir([e] + listing, prefix) == ScanDir(listing, prefix)
    ensures Denied([e] + listing) == Denied(listing)
  {
    assert ([e] + listing)[1..] == listing;
    InsertSilent(e, Sort(listing), prefix);
  }

  /** Any number of such entries listed first change nothing either. */
  lemma {:induction false} SilentEntriesIgnored(silent: seq<Entry>, listing: seq<Entry>, prefix: string)
    requires forall i :: 0 <= i < |silent| ==> Silent(silent[i])
    ensures ScanDir(silent + listing, prefix) == ScanDir(listing, prefix)
    ensures Denied(silent + listing) == Denied(listing)
  {
    if |silent| == 0 {
      assert silent + listing == listing;
    } else {
      var rest := silent[1..] + listing;
      assert silent + listing == [silent[0]] + rest;
      SilentEntriesIgnored(silent[1..], listing, prefix);
      SilentEntryIgnored(silent[0], rest, prefix);
    }
  }

  /** The order in which the directory is listed does not matter. */
  lemma ListingOrderIrrelevant(cs: seq<Entry>, ds: seq<Entry>, prefix: string)
    requires multiset(cs) == multiset(ds)
    requires UniqueNames(cs)
    ensures ScanDir(cs, prefix) == ScanDir(ds, prefix)
    ensures Denied(cs) == Denied(ds)
  {
    SortOrderIrrelevant(cs, ds);
  }
}

=== FILE: values.dfy ===
/** The parameter bag: the `dict[str, Any]` the CLI and the human-in-the-loop dialogues pass
    around (scaffai/hil.py, scaffai/cli.py), and the two Python behaviours the program relies on
    when it reads one: truth testing (`if params.get("name")`) and conversion to text inside an
    f-string. */
module Values {

  import opened Wrappers
  import opened Strings
  import opened Paths

  /** A value stored in the bag: `None`, a `str`, a `pathlib.Path` (kept as the text it was
      built from), or a list of `str`. */
  datatype Value = Null | Str(s: string) | PathOf(raw: string) | List(items: seq<string>)

  type Bag = map<string, Value>

  /** `params.get(key)`: a missing key reads as `None`. */
  function Get(params: Bag, key: string): Value
  {
    if key in params then params[key] else Null
  }

  /** Python truth testing. A `Path` defines neither `__bool__` nor `__len__`, so every path is
      true, even `Path("")` (which is `Path(".")`). */
  predicate Truthy(v: Value)
  {
    match v
    case Null => false
    case Str(s) => s != ""
    case PathOf(_) => true
    case List(items) => items != []
  }

  /** `str(v)`, which is what an f-string writes: "None" for `None`, the text itself for a
      `str`, and for a `Path` its normal form, which is never empty and which `Path` leaves as
      it is. */
  function Text(v: Value): (r: string)
    ensures v.Null? ==> r == "None"
    ensures v.Str? ==> r == v.s
    ensures v.PathOf? ==> r == PathString(v.raw) && r != "" && PathString(r) == r
    ensures v.List? ==> |r| >= 2 && r[0] == '[' && r[|r| - 1] == ']'
  {
    match v
    case Null => "None"
    case Str(s) => s
    case PathOf(raw) =>
      PathStringIdempotent(raw);
      PathString(raw)
    // No caller formats a list directly; the focus areas are joined first.
    case List(items) => "[" + Join(Quoted(items), ", ") + "]"
  }

  function Quoted(items: seq<string>): (r: seq<string>)
    ensures |r| == |items|
  {
    if items == [] then [] else ["'" + items[0] + "'"] + Quoted(items[1..])
  }

  /** The false values the bag can hold are exactly `None`, the empty string and the empty
      list; every path is true. */
  lemma Falsy(v: Value)
    ensures !Truthy(v) <==> v == Null || v == Str("") || v == List([])
    ensures v.PathOf? ==> Truthy(v)
  {
  }

  /** An optional command-line string: `None` when the option was not given. */
  function OptStr(o: Option<string>): Value
  {
    match o
    case None => Null
    case Some(s) => Str(s)
  }

  /** An optional command-line path: `None` when the option was not given, else the `Path`
      typer builds from the text. */
  function OptPath(o: Option<string>): Value
  {
    match o
    case None => Null
    case Some(p) => PathOf(p)
  }

  /** A path-typed option is true exactly when it was given at all, and then its text is
      never empty. */
  lemma OptPathTruthy(o: Option<string>)
    ensures Truthy(OptPath(o)) <==> o.Some?
    ensures o.Some? ==> Text(OptPath(o)) != ""
  {
  }
}

=== FILE: wrappers.dfy ===
/** The optional value used wherever the modelled program has `None`-or-value. */
module Wrappers {

  datatype Option<+T> = None | Some(value: T)
}
